=== FILE: README.md ===
# ParkingManagement in Dafny

This is a model of the decision logic of the ParkingManagement system. The system has three parts:

- **Camera tracker** (`plate_to_num.py`). For each camera frame it:
  - drops small detector rectangles;
  - links a rectangle to a plate already being tracked when the two rectangles overlap (intersection over union above 0.5);
  - otherwise picks an OCR string and keeps it only if it passes the plate grammar "AA 00 AA 0000";
  - keeps an entry time, last-seen time and last rectangle for each plate;
  - drops a plate once it has been out of view for more than 3 seconds, saving a parking session if the stay was longer than 30 seconds.
- **Web routes** (`app.py`):
  - the unpaid-session gate of `lots` and `reserve`;
  - the tariff and bill selection of `payment`;
  - the flag flip of `confirm_payment`;
  - the ten-minute hold of `reserve`;
  - the slot map of `slots`;
  - the entry decision of `validate_entry`.
- **Mismatch poller** (`session_alert.py`). One poll reads the open sessions not yet processed, attempts an alert for each whose plate is not the expected one, and records each as processed.

Everything is pure functions over immutable values. A frame, a request and a poll are each one step function, and lemmas state the invariants those steps keep.

| module | file | what it holds |
|---|---|---|
| `Common` | common.dfy | `Option`; the ASCII character classes; integer-to-text conversion |
| `Geometry` | geometry.dfy | rectangles, exact IoU as a `real`, the 0.5 threshold |
| `PlateFormat` | plate_format.dfy | the plate grammar as a class pattern; its parser and printer |
| `OrderedDict` | ordered_dict.dfy | a Python dict with its insertion order: key sequence plus map |
| `Tracker` | tracker.dfy | tracker state and the per-frame step |
| `TrackerProofs` | tracker_proofs.dfy | invariants and properties of the per-frame step |
| `Records` | records.dfy | `parking_sessions` and `reservations` rows; route responses |
| `Billing` | billing.dfy | tariff; latest unpaid session; `lots`, `payment`, `confirm_payment` |
| `Reservations` | reservations.dfy | `reserve`, `slots`, `validate_entry` |
| `SessionAlert` | session_alert.dfy | one poll of `process_sessions` |

Modelling choices:

- **Time.** Each frame and each request takes one integer timestamp in microseconds, the resolution of `datetime`. The grace period is 3 000 000 µs and the minimum stay is 30 000 000 µs. Both comparisons are strict, as in the source.
- **Durations.** The tracker stores a session's `duration` as the float seconds of `total_seconds()` (plate_to_num.py:168; the column is `duration REAL`). `Tracker.Session` keeps it in microseconds. `Records.SessionRow`, the row `payment` reads, keeps it in whole seconds, because `payment` floor-divides it by 60 (app.py:312).
- **Two views of one table.** `Tracker.Session` is the row plate_to_num.py writes into `parking_sessions`; `Records.SessionRow` is the row app.py and session_alert.py read from it. The model does not connect the two: the writer's schema in db.py is a SQLite table without the `paid` column, while app.py reads a MySQL table that has it.
- **Stay length.** A saved duration follows the code: `now − start`, measured up to the frame in which the plate is dropped. Measuring the stay only up to the last sighting would give a shorter duration; `TrackerProofs.StepKeepsClock` states by how much.
- **Dict order.** Python dicts iterate in insertion order, and that order decides which stored plate matches first. `OrderedDict` therefore keeps the key sequence. The invariant requires `last_seen_timestamps` and `last_detected_boxes` to list the same keys in the same order.
- **Tables.** Database tables are sequences in table order. A query's row order is taken to be table order.

## Model

| member | source | states |
|---|---|---|
| Geometry.Iou | plate_to_num.py:73-87 | IoU is never negative |
| Geometry.IouSymmetric | plate_to_num.py:73-87 | swapping the two rectangles changes neither the intersection, the union nor the IoU |
| Geometry.IouZeroWhenApart | plate_to_num.py:77-87 | rectangles separated on an axis (touching included), or with a non-positive union, have IoU 0 and never count as the same plate |
| Geometry.IntersectionEmptyIffSeparated | plate_to_num.py:77-81 | for rectangles of positive size, the clamped intersection is 0 exactly when they are separated along one axis |
| Geometry.IouSelf | plate_to_num.py:73-87 | a rectangle of positive size has IoU exactly 1 with itself, so it passes the 0.5 threshold |
| Geometry.IntersectionWithinAreas | plate_to_num.py:77-83 | for non-negative sizes the intersection is no larger than either area |
| Geometry.IouBounded | plate_to_num.py:73-87 | for non-negative sizes IoU lies in [0, 1] |
| Geometry.OverlapsIff | plate_to_num.py:113-117 | IoU > 0.5 holds exactly when the union is positive and twice the intersection exceeds it |
| PlateFormat.Parse | plate_to_num.py:50-52 | a text is split into parts exactly when the grammar accepts it, and the parts are two capitals, two digits, two capitals, four digits |
| PlateFormat.RenderParses | plate_to_num.py:50-52 | every well-formed part tuple prints to an accepted text that parses back to the same tuple |
| PlateFormat.ParseRenders | plate_to_num.py:50-52 | an accepted text is the printing of its parts, possibly followed by a single newline |
| PlateFormat.TrailingNewlineAccepted | plate_to_num.py:51-52 | the `$` anchor also accepts a plate followed by one newline |
| PlateFormat.LengthOfAccepted | plate_to_num.py:51 | accepted texts have 13 characters, or 14 when the last is a newline |
| PlateFormat.ExampleAccepted | plate_to_num.py:50-52 | "KA 18 EQ 0001" is accepted and splits into KA / 18 / EQ / 0001 |
| PlateFormat.UnspacedRejected | plate_to_num.py:50-52 | a plate written without spaces, and the empty text, are rejected |
| OrderedDict.Set | plate_to_num.py:142-158 | assigning a key updates its value; a new key is appended at the end and an existing key keeps its position |
| OrderedDict.Pop | plate_to_num.py:184-188 | popping removes the key from the map and from the order; the other keys keep their values |
| OrderedDict.WithoutAbsent | plate_to_num.py:184-188 | removing a key that is not in the order leaves the order as it is |
| OrderedDict.WithoutAt | plate_to_num.py:184-188 | removing the key at position i of a duplicate-free order leaves the keys before and after it, in order |
| OrderedDict.PopKeepsOrder | plate_to_num.py:184-188 | popping the key at position i leaves exactly the other keys in their old order; popping a missing key, as `pop(plate, None)` allows, changes nothing |
| OrderedDict.SetKeepsOrder | plate_to_num.py:142-158 | assignment never reorders the keys already present |
| Tracker.FirstMatchFrom | plate_to_num.py:112-117 | the scan returns the first stored rectangle at or after the position whose IoU with the detection is above 0.5, or nothing when none is |
| Tracker.ReadText | plate_to_num.py:132-137 | the chosen text is the first OCR string holding both a digit and a letter; the `Unknown_x_y` placeholder is used only when no string qualifies |
| Tracker.MatchedPlate | plate_to_num.py:112-120 | a matched plate is a stored, non-empty plate (so the truthiness test passes) whose rectangle has IoU above 0.5 with the detection; when no stored rectangle overlaps, there is no match |
| Tracker.Record | plate_to_num.py:140-158 | recording a plate sets its rectangle and last-seen time and adds it to the timers; an entry time is set only for a plate without one, and no existing entry time changes |
| Tracker.Evict | plate_to_num.py:184-188 | removing the departing plates drops exactly them from the last-seen, last-rectangle and in-view structures; every remaining value is unchanged |
| Tracker.ProcessDetection | plate_to_num.py:108-158 | one detection keeps the state well formed, adds at most one plate to the frame's detected list and only a grammar-valid one, costs at most one OCR read, keeps every existing entry time and gives a new one the frame time |
| Tracker.Detect | plate_to_num.py:108-158 | the detection loop over a frame keeps the state well formed, adds at most one grammar-valid plate per rectangle, costs at most one OCR read per rectangle, and keeps every existing entry time |
| Tracker.ExitScan | plate_to_num.py:161-182 | the exit scan only removes entry times, never changes one; every saved session belongs to a leaving plate that had an entry time, starts at that entry time, ends now and lasts over 30 s; no plate is saved twice |
| Tracker.Reap | plate_to_num.py:161-188 | the exit phase keeps the state well formed and only removes entry times; every saved session belongs to a plate with an entry time, starts at it, ends now and lasts over 30 s; no plate is saved twice, so there are no more sessions than tracked plates |
| Tracker.Step | plate_to_num.py:106-188 | a frame keeps the state well formed; surviving entry times are unchanged and new ones are the frame time; every saved session ends now and lasts over 30 s; no plate is saved twice in a frame; there is at most one OCR read per rectangle |
| TrackerProofs.RecordedSpec | plate_to_num.py:140-158 | recording a valid plate keeps the tracker invariant, extends the frame's detected list and refreshes the plate's last-seen time |
| TrackerProofs.ReapKeeps | plate_to_num.py:161-188 | the exit phase keeps the tracker invariant, drops a tracked plate exactly when it departs (not detected, last sighting more than 3 s ago), and leaves every kept plate's entries unchanged |
| TrackerProofs.ReapSaved | plate_to_num.py:163-182 | the exit phase saves a session only for a dropped plate whose stay up to now exceeds 30 s, with that plate's entry time; it saves one for every such plate; it never saves a plate twice |
| TrackerProofs.InitialInv | plate_to_num.py:90-93 | the empty start state satisfies the tracker invariant |
| TrackerProofs.StepPreservesInv | plate_to_num.py:106-188 | after each frame the keys of the timers, last-seen times and last rectangles coincide (the last two in the same order); every key passes the grammar; the in-view set is a subset of them |
| TrackerProofs.RunPreservesInv | plate_to_num.py:95-188 | the invariant holds after any sequence of frames |
| TrackerProofs.EntryTimeKept | plate_to_num.py:150-151 | a plate's entry time never changes while it is tracked; a plate gaining one this frame was detected and gets the frame time |
| TrackerProofs.DetectedRefreshed | plate_to_num.py:140-158 | every plate validated in this frame is still tracked afterwards, with last-seen time equal to the frame time |
| TrackerProofs.ReapedIff | plate_to_num.py:161-188 | a plate tracked before the frame is dropped exactly when it was not validated this frame and its last sighting is more than 3 s old; a plate first seen this frame is never dropped |
| TrackerProofs.SurvivorsUntouched | plate_to_num.py:161-188 | a plate kept but not detected this frame keeps its entry time, last-seen time, rectangle and in-view mark |
| TrackerProofs.SavedSessions | plate_to_num.py:165-182 | each saved session belongs to a dropped plate and has lot "Lot_A", slot "Slot_1", the entry time as start, the reap time (not the last sighting) as end, end − start as duration, and duration over 30 s; every dropped plate whose stay exceeded 30 s is saved; no plate is saved twice in a frame |
| TrackerProofs.StepKeepsClock | plate_to_num.py:150-169 | with non-decreasing frame times, entry ≤ last seen ≤ now is kept, and a saved duration exceeds the time from entry to the last sighting by more than the grace period |
| TrackerProofs.SmallDetectionIgnored | plate_to_num.py:108-110 | a rectangle of area at most 500 changes nothing: no OCR read, no state change, nothing detected |
| TrackerProofs.SmallDetectionsIgnored | plate_to_num.py:108-110 | a frame behaves exactly as the same frame with its small rectangles removed |
| TrackerProofs.FirstMatchWins | plate_to_num.py:112-117 | a detection matches a stored plate exactly when some stored rectangle has IoU above 0.5 with it, and the match is the first such plate in insertion order |
| TrackerProofs.MatchedSkipsOcr | plate_to_num.py:112-158 | a matched detection reuses the stored plate whatever the OCR output, performs no OCR read, refreshes that plate's rectangle and last-seen time, and leaves the entry times alone |
| TrackerProofs.UnmatchedReadsOcr | plate_to_num.py:121-143 | an unmatched detection costs one OCR read; its text is recorded if it passes the grammar and discarded otherwise |
| TrackerProofs.PlaceholderNeverValid | plate_to_num.py:137-140 | the `Unknown_x_y` placeholder never passes the grammar, so it is never tracked |
| TrackerProofs.RepeatedBoxMatches | plate_to_num.py:112-120 | a rectangle of positive size identical to a stored one always matches a stored plate |
| Billing.Tariff | app.py:312-317 | the charge is never below the flat rate of 20 |
| Billing.TariffMonotone | app.py:312-317 | a longer stay never costs less |
| Billing.TariffFlatIff | app.py:312-314 | exactly the stays shorter than 11 whole minutes pay only the flat 20 |
| Billing.TariffPerMinute | app.py:315-317 | past the flat period, each further whole minute adds exactly 2 |
| Billing.LatestUnpaidIn | app.py:297-304 | the query finds nothing exactly when the plate has no completed unpaid session; otherwise the result is such a session with the greatest end time, and the earliest row among equal end times |
| Billing.LatestUnpaidIffHasUnpaid | app.py:118-125 | the billing query finds a row exactly when the unpaid gate fires |
| Billing.LotsPaymentAgree | app.py:107-132 | for a logged-in user, `lots` sends to payment exactly when `payment` has a bill to show, and `payment` sends back exactly when `lots` shows the lots, so the two redirects never loop |
| Billing.MarkPaid | app.py:363-367 | the table keeps its length; rows with another id are unchanged; rows with the id differ only in `paid`, which becomes 1; an absent id changes nothing; with unique ids exactly one row changes |
| Billing.Lots | app.py:107-132 | `lots` sends to login exactly without a login, to payment exactly when the logged-in plate has an unpaid completed session, and otherwise shows the four lots |
| Billing.Payment | app.py:287-333 | `payment` sends to login exactly without a login and back to lots exactly when nothing is unpaid; a bill shows an unpaid completed session of the user with the latest end time, charged the tariff of its duration |
| Billing.ConfirmPayment | app.py:335-381 | confirming keeps the table length and redirects to lots or login; without a login or an unpaid row nothing changes; any changed row is one of the user's unpaid rows, now with `paid` 1 |
| Billing.BilledRowIsConfirmedRow | app.py:297-367 | on one and the same table, the row `payment` bills is an unpaid completed session of the user, charged the tariff of its duration, and it is the row `confirm_payment` marks paid |
| Billing.StaleConfirmExample | app.py:350-367 | when the billed row is marked paid between the two requests, `confirm_payment` settles another session of the user, never billed and charged 200 instead of 20 |
| Billing.ConfirmFlipsOneRow | app.py:341-371 | with unique ids, confirming flips exactly the selected row from unpaid to paid; without a login or a pending row the table is unchanged |
| Billing.ConfirmSettlesOne | app.py:350-367 | the user's unpaid rows afterwards are the earlier ones minus the selected row; other plates' unpaid rows are unchanged |
| Reservations.Reserve | app.py:228-275 | `reserve` sends to login exactly without a login and to payment exactly with an unpaid session; it books exactly when the insert succeeds otherwise, appending a booking for that plate, lot and slot that expires 600 000 000 µs later; in every other case the table is unchanged |
| Reservations.ReserveGate | app.py:228-275 | `reserve` sends to payment exactly when `lots` does, changing nothing; it books only for a logged-in user with no unpaid session when the insert succeeds; the booking is appended for that plate, lot and slot with expiry exactly now + 10 minutes |
| Reservations.ActiveFor | app.py:198-202 | the query returns exactly the reservations of the lot whose expiry is later than now |
| Reservations.SlotNamesSpelled | app.py:205 | `f'Slot {i}'` for i in `range(1, 9)` spells "Slot 1" to "Slot 8" in order |
| Reservations.DefaultSlots | app.py:205 | the map built from `f'Slot {i}'` over `range(1, 9)` has exactly the keys "Slot 1" to "Slot 8", all empty |
| Reservations.LastExists | app.py:206-223 | every reserved slot name has a last row in the reservation list |
| Reservations.FillSpec | app.py:206-223 | the fill loop keeps the starting keys and adds each reserved slot name; an unreserved key keeps its value; a reserved slot holds the expiry of its last row |
| Reservations.Slots | app.py:192-226 | all eight slots are shown; a slot is free exactly when it is one of the eight and no active reservation of the lot names it; a taken slot shows the expiry of an active reservation of the lot for that slot |
| Reservations.FilledSlots | app.py:198-223 | the fill of the default map by the active reservations has the properties `Slots` promises |
| Reservations.SlotsSpec | app.py:198-223 | the slot map has "Slot 1" to "Slot 8" plus any slot an active reservation names; a slot with no active reservation is empty; a reserved slot shows the expiry of its last active reservation |
| Reservations.NewReservationShown | app.py:198-223 | a reservation just made shows on its lot's slot map, with its own expiry, for the whole ten-minute hold |
| Reservations.ActiveReservation | app.py:170-174 | the lookup finds nothing exactly when no active reservation exists for the lot and slot; otherwise it returns the first one in table order |
| Reservations.ValidateEntry | app.py:178-190 | every path redirects to the lots page |
| Reservations.EntryAlertIff | app.py:178-190 | at most one alert; one is sent exactly when a reservation exists for a different plate, and it carries the captured and reserved plates |
| Reservations.EntryRoute | app.py:170-190 | the intended route always redirects to lots; it sends at most one alert; it reports no reservation exactly when no active reservation of the lot and slot exists; an alert names the captured plate and the different plate of such a reservation |
| Reservations.EntryRouteAlerts | app.py:170-190 | the intended route alerts exactly when the first active reservation of the lot and slot is for a different plate |
| Reservations.Matching | app.py:170-173 | the query matches exactly the reservations of the lot and slot whose expiry is later than now |
| Reservations.Execute | app.py:170-173 | `cursor.execute` returns a row count, never the cursor, and the count is at most the table size |
| Reservations.CursorFetchesFirstMatch | app.py:170-174 | fetching the first row of the query's cursor gives the first active reservation of the lot and slot |
| Reservations.EntryRouteAsWritten | app.py:170-174 | the route as written applies `.fetchone()` to the count `execute` returns, so it raises before it reaches the decision |
| Reservations.EntryRouteCorrected | app.py:170-190 | applying `.fetchone()` to the cursor instead completes on every request with the intended route's outcome |
| Reservations.EntryDefect | app.py:170-190 | on every request the route as written never reaches the outcome the intended route decides, so it never alerts |
| Reservations.EntryDefectExample | app.py:170-190 | for a reservation held by "Unregistered", the intended route alerts on "KA01AB1234" while the written one fails |
| SessionAlert.Pending | session_alert.py:83-90 | the poll query returns exactly the open sessions whose id is not yet processed |
| SessionAlert.Examine | session_alert.py:92-127 | the loop attempts at most one alert per row, each for a mismatching row; it marks only ids of examined rows whose insert succeeded |
| SessionAlert.ExamineSpec | session_alert.py:92-127 | exactly the examined ids whose insert succeeded are marked, matched or not; an alert is attempted for exactly the examined rows with an unexpected plate |
| SessionAlert.PollOnce | session_alert.py:83-127 | a poll examines exactly the open, unprocessed rows; the processed set only grows, and never by an id whose insert failed; alerts are no more than examined rows, which are no more than the table's rows |
| SessionAlert.PollSpec | session_alert.py:83-127 | a poll examines exactly the open, unprocessed sessions; it alerts on exactly those with an unexpected plate; the processed set only grows, by the examined ids whose insert succeeded |
| SessionAlert.AlertIffMismatch | session_alert.py:100-114 | an examined session causes an alert exactly when its plate is not "KA 18 EQ 0001" |
| SessionAlert.SecondPollQuiet | session_alert.py:83-125 | after a poll with no failed inserts, a second poll over the same table examines nothing, alerts nothing and adds nothing |
| SessionAlert.ExaminedAtMostOnce | session_alert.py:83-125 | a session examined by two successive polls had its first insert fail |
| SessionAlert.FailedInsertRetried | session_alert.py:117-127 | a session whose insert failed stays unprocessed and is examined again by the next poll |
| SessionAlert.ExpectedPlateExample | session_alert.py:17 | the expected plate passes the tracker's grammar; the sample start-up row "CG 19 EQ 0001" is examined, alerted on and marked processed |

## Left out

- Image capture and detection are not modelled. This covers OpenCV, the Haar cascade, EasyOCR, image writes, drawing and display (plate_to_num.py:32-47, 55-65, 97-104, 122-132, 145-147, 190-200). They are foreign libraries. A frame is modelled as detector rectangles, each with its list of OCR strings.
- The wall clock and floating-point seconds are replaced by one integer timestamp per frame. The tracker calls `datetime.now()` separately at lines 151, 158 and 162, so within one frame the source's entry, last-seen and reap times can differ by microseconds; the model uses the same value for all three. The `duration > 30` test on float seconds becomes a strict comparison with 30 000 000 µs.
- Database connections, `save_parking_session` and the SQL DDL (plate_to_num.py:15-29, app.py:19-27, session_alert.py:21-71, db.py) are I/O. A saved session is an element of the frame's output sequence, and tables are sequences of rows.
- `send_alert` and Twilio (app.py:136-160) are network I/O; an alert is an emitted value. What `send_alert`'s arguments mean is not modelled, because session_alert.py passes `(phone, message)` where it expects `(actual, reserved)`. The message text is not modelled either.
- Billing.BilledRowIsConfirmedRow: assumes that `payment` and `confirm_payment` see the same table. They are two requests, and `confirm_payment` re-runs its own query (app.py:350-357) instead of receiving the billed id. If the table changes in between, the row marked paid is a different one from the row billed. A superadmin's `mark_paid` (app.py:478-492) or a resubmitted confirmation can cause such a change. `Billing.StaleConfirmExample` gives a concrete case.
- Reservations.ValidateEntry: assumes `send_alert` returns normally, and so do `Reservations.EntryRoute` and its lemmas. Neither `send_alert` (app.py:136-160) nor its call at app.py:183 catches an exception. When Twilio fails or its environment variables are missing, the mismatch branch ends in an uncaught exception instead of the redirect to lots. The "every path redirects to lots" clauses therefore hold only for a send that succeeds. The poller differs: session_alert.py catches a failed send and still records the session.
- Tracker.Step: assumes every `save_parking_session` call returns normally, and so does `Tracker.Run`. The call at plate_to_num.py:173 is not guarded. A database error raised there leaves the `while True` loop through the `finally` at plate_to_num.py:197, which releases the camera and ends tracking for good. The model has no such stop: after a failing save the source records no further sessions, while the model keeps stepping.
- Flask plumbing is left out: routing, cookies, flash messages, templates, registration, login, the superadmin and user/reservation administration (app.py:30-102, 384-492). The session cookie's plate is an `Option<string>` input.
- The poll's sleep loop and its start-up test insert (session_alert.py:74-80, 129-146) are left out; one poll with a working connection is modelled. Only the start-up row's values appear, in an example.
- `static/js/script.js` (browser timers), `db.py` (its table lacks the `paid` column app.py uses) and `tempCodeRunnerFile.py` (a demo alert script) are not part of this model.
- `PlateFormat.IsValidPlate` reads `\d` as the ASCII digits. Python's `\d` on `str` also accepts other Unicode decimal digits, and `isalpha`/`isdigit` in the OCR filter accept non-ASCII letters and digits; the model uses ASCII throughout.
- `Billing.LatestUnpaidIn` breaks ties between equal end times by taking the earliest row in table order; SQL leaves that order unspecified.
- `Reservations.ActiveReservation` takes the first matching row in table order, and `Reservations.Slots` fills in table order; SQL leaves the order of these queries unspecified.
- The `strptime` conversion in `slots` (app.py:207-220) is left out: an expiry is an opaque integer, whether it arrives as text or as a datetime.
- `Billing.ConfirmPayment` does not model the exception branch (app.py:373-374), which only flashes a message and leaves the table unchanged.
- `Reservations.Reserve` models a failed insert only through a boolean input; the failing database error is not modelled.
- The poll never changes `parking_sessions`; this holds by construction, because `SessionAlert.PollOnce` returns no rows.
- Billing.Tariff: takes whole seconds, where the source's `duration` is a float. The number of minutes is the same, since ⌊⌊d⌋ / 60⌋ = ⌊d / 60⌋ for every non-negative d. The source's amount is then a float with the same value as the model's integer.
- Reservations.NewReservationShown: uses one clock for two readings. The expiry comes from Python's `datetime.now()` (app.py:254). The `slots` query compares it with MySQL's `NOW()` (app.py:200), which has second precision and uses the database's time zone. If the two clocks disagree, the slot can show as free before the ten-minute hold ends, or stay reserved after it.
- Row selection compares `license_plate`, `lot_name` and `slot_name` by exact string equality. MySQL's default collations compare without regard to case, and PAD SPACE collations ignore trailing spaces. The MySQL schema is not part of this model (db.py describes a SQLite database), so the model does not promise which rows such a collation would match.

## Findings

| source | as written | input that shows it | evidently intended | confidence | as-written member | corrected member |
|---|---|---|---|---|---|---|
| app.py:170-174 | `.fetchone()` is called on the value `cursor.execute(...)` returns, which pymysql makes an integer row count, so the route raises before it looks at the reservation | any POST to `validate_entry`, e.g. plate "KA01AB1234" for Lot A / Slot 1 while "Unregistered" holds that slot | run the query, then take the first row with `cursor.fetchone()` and decide on it | high; not executed | Reservations.EntryRouteAsWritten (with Reservations.EntryDefect and Reservations.EntryDefectExample) | Reservations.EntryRoute (with Reservations.EntryRouteCorrected and Reservations.EntryRouteAlerts) |

=== FILE: billing.dfy ===
/** Billing in app.py: the tariff of `payment`, the choice of the latest unpaid
    completed session shared by `payment` and `confirm_payment`, the flip of its
    `paid` flag, and the unpaid-session gate of `lots`. */
module Billing {
  import opened Common
  import opened Records

  const FLAT_RATE := 20
  const FLAT_MINUTES := 10
  const PER_MINUTE := 2
  const LOTS := ["Lot A", "Lot B", "Lot C", "Lot D"]

  /** `duration // 60`; Dafny's division by a positive divisor floors like Python's. */
  function Minutes(seconds: int): int
  {
    seconds / 60
  }

  /** The amount charged for a session of the given length. */
  function Tariff(seconds: int): (amount: int)
    ensures amount >= FLAT_RATE
  {
    var minutes := Minutes(seconds);
    if minutes <= FLAT_MINUTES then FLAT_RATE
    else FLAT_RATE + (minutes - FLAT_MINUTES) * PER_MINUTE
  }

  lemma MinutesMonotone(a: int, b: int)
    requires a <= b
    ensures Minutes(a) <= Minutes(b)
  {
  }

  /** A longer stay never costs less. */
  lemma TariffMonotone(a: int, b: int)
    requires a <= b
    ensures Tariff(a) <= Tariff(b)
  {
    MinutesMonotone(a, b);
  }

  /** Only the flat rate is charged up to 10 minutes 59 seconds, and only then. */
  lemma TariffFlatIff(seconds: int)
    ensures Tariff(seconds) == FLAT_RATE <==> seconds < (FLAT_MINUTES + 1) * 60
  {
  }

  /** Past the flat period, every further full minute adds exactly the per-minute charge. */
  lemma TariffPerMinute(seconds: int)
    requires Minutes(seconds) >= FLAT_MINUTES
    ensures Minutes(seconds + 60) == Minutes(seconds) + 1
    ensures Tariff(seconds + 60) == Tariff(seconds) + PER_MINUTE
  {
  }

  /** A completed (`end_time IS NOT NULL`) and unpaid (`paid = 0`) session of the plate. */
  predicate Unpaid(r: SessionRow, plate: string)
  {
    r.plate == plate && r.paid == 0 && r.end.Some?
  }

  /** `WHERE license_plate = %s AND paid = 0 AND end_time IS NOT NULL
      ORDER BY end_time DESC LIMIT 1` over the first `n` rows: a row with the
      greatest end time; among equal end times the earliest row. */
  function LatestUnpaidIn(rows: seq<SessionRow>, plate: string, n: nat): (r: Option<nat>)
    requires n <= |rows|
    ensures r.None? <==> forall i :: 0 <= i < n ==> !Unpaid(rows[i], plate)
    ensures r.Some? ==> r.value < n && Unpaid(rows[r.value], plate)
    ensures r.Some? ==> forall i :: 0 <= i < n && Unpaid(rows[i], plate) ==>
                          rows[i].end.value <= rows[r.value].end.value
    ensures r.Some? ==> forall i :: 0 <= i < r.value && Unpaid(rows[i], plate) ==>
                          rows[i].end.value < rows[r.value].end.value
  {
    if n == 0 then None
    else
      var prev := LatestUnpaidIn(rows, plate, n - 1);
      if !Unpaid(rows[n - 1], plate) then prev
      else if prev.None? || rows[n - 1].end.value > rows[prev.value].end.value then Some(n - 1)
      else prev
  }

  function LatestUnpaid(rows: seq<SessionRow>, plate: string): (r: Option<nat>)
    ensures r.Some? ==> r.value < |rows|
  {
    LatestUnpaidIn(rows, plate, |rows|)
  }

  /** `SELECT * ... WHERE license_plate = %s AND paid = 0 AND end_time IS NOT NULL` found a row. */
  predicate HasUnpaid(rows: seq<SessionRow>, plate: string)
  {
    exists i :: 0 <= i < |rows| && Unpaid(rows[i], plate)
  }

  /** The `lots` route. */
  function Lots(rows: seq<SessionRow>, plate: Option<string>): (r: Response)
    ensures r == ToLogin <==> !LoggedIn(plate)
    ensures r == ToPayment <==> LoggedIn(plate) && LatestUnpaid(rows, plate.value).Some?
    ensures r == ToLogin || r == ToPayment || r == LotsPage(LOTS)
  {
    if !LoggedIn(plate) then ToLogin
    else if HasUnpaid(rows, plate.value) then ToPayment
    else LotsPage(LOTS)
  }

  /** The `payment` route: the bill for the latest unpaid completed session, or back to lots. */
  function Payment(rows: seq<SessionRow>, plate: Option<string>): (r: Response)
    ensures r == ToLogin <==> !LoggedIn(plate)
    ensures r == ToLots <==> LoggedIn(plate) && !HasUnpaid(rows, plate.value)
    ensures r.BillPage? ==>
              && LoggedIn(plate) && r.row in rows && Unpaid(r.row, plate.value)
              && r.amount == Tariff(r.row.duration)
              && forall x :: x in rows && Unpaid(x, plate.value) ==> x.end.value <= r.row.end.value
  {
    if !LoggedIn(plate) then ToLogin
    else match LatestUnpaid(rows, plate.value)
      case None => ToLots
      case Some(i) => BillPage(rows[i], Tariff(rows[i].duration))
  }

  /** `UPDATE parking_sessions SET paid = 1 WHERE id = %s` */
  function MarkPaid(rows: seq<SessionRow>, id: int): (r: seq<SessionRow>)
    ensures |r| == |rows|
    ensures forall j :: 0 <= j < |rows| && rows[j].id != id ==> r[j] == rows[j]
    ensures forall j :: 0 <= j < |rows| && rows[j].id == id ==>
              r[j].paid == 1 && r[j].(paid := rows[j].paid) == rows[j]
    ensures (forall j :: 0 <= j < |rows| ==> rows[j].id != id) ==> r == rows
    ensures UniqueIds(rows) ==>
              forall i :: 0 <= i < |rows| && rows[i].id == id ==> r == rows[i := rows[i].(paid := 1)]
  {
    seq(|rows|, j requires 0 <= j < |rows| => if rows[j].id == id then rows[j].(paid := 1) else rows[j])
  }

  /** The outcome of `confirm_payment`: the table afterwards and the redirect. */
  datatype Confirmation = Confirmation(rows: seq<SessionRow>, response: Response)

  /** The `confirm_payment` route. */
  function ConfirmPayment(rows: seq<SessionRow>, plate: Option<string>): (r: Confirmation)
    ensures r.response == (if LoggedIn(plate) then ToLots else ToLogin)
    ensures |r.rows| == |rows|
    ensures !(LoggedIn(plate) && HasUnpaid(rows, plate.value)) ==> r.rows == rows
    ensures forall j :: 0 <= j < |rows| && r.rows[j] != rows[j] ==>
              && LoggedIn(plate) && r.rows[j] == rows[j].(paid := 1)
              && exists i :: 0 <= i < |rows| && Unpaid(rows[i], plate.value) && rows[i].id == rows[j].id
  {
    if !LoggedIn(plate) then Confirmation(rows, ToLogin)
    else match LatestUnpaid(rows, plate.value)
      case None => Confirmation(rows, ToLots)
      case Some(i) => Confirmation(MarkPaid(rows, rows[i].id), ToLots)
  }

  /** `LatestUnpaid` finds a row exactly when the unpaid gate of `lots` fires. */
  lemma LatestUnpaidIffHasUnpaid(rows: seq<SessionRow>, plate: string)
    ensures LatestUnpaid(rows, plate).Some? <==> HasUnpaid(rows, plate)
  {
  }

  /** `lots` sends a logged-in user to payment exactly when `payment` has a bill to show,
      and `payment` sends them back to lots exactly when `lots` lets them through:
      the two redirects never form a loop. */
  lemma LotsPaymentAgree(rows: seq<SessionRow>, plate: Option<string>)
    requires LoggedIn(plate)
    ensures Lots(rows, plate) == ToPayment <==> Payment(rows, plate).BillPage?
    ensures Lots(rows, plate) == LotsPage(LOTS) <==> Payment(rows, plate) == ToLots
  {
    LatestUnpaidIffHasUnpaid(rows, plate.value);
  }

  /** The row `payment` bills is the row `confirm_payment` marks paid, and the bill
      is the tariff of its duration. */
  lemma BilledRowIsConfirmedRow(rows: seq<SessionRow>, plate: Option<string>)
    requires LoggedIn(plate)
    ensures Payment(rows, plate).BillPage? ==>
      var row := Payment(rows, plate).row;
      && row.plate == plate.value && row.paid == 0 && row.end.Some?
      && Payment(rows, plate).amount == Tariff(row.duration)
      && exists i :: 0 <= i < |rows| && rows[i] == row && ConfirmPayment(rows, plate).rows[i] == row.(paid := 1)
  {
    if Payment(rows, plate).BillPage? {
      var i := LatestUnpaid(rows, plate.value).value;
      assert ConfirmPayment(rows, plate).rows[i] == rows[i].(paid := 1);
    }
  }

  /** `payment` and `confirm_payment` are separate requests, and the second re-runs the
      query instead of receiving the billed id. When the billed row is marked paid in
      between (by the superadmin's `mark_paid`, or by an earlier confirmation), the
      confirmation settles a different session, one that was never billed and costs more. */
  lemma StaleConfirmExample()
    ensures var a := SessionRow(1, "P", "Lot A", "Slot 1", 0, Some(10), 60, 0);
      var b := SessionRow(2, "P", "Lot A", "Slot 2", 0, Some(5), 6000, 0);
      && Payment([a, b], Some("P")) == BillPage(a, 20)
      && ConfirmPayment(MarkPaid([a, b], 1), Some("P")).rows == [a.(paid := 1), b.(paid := 1)]
      && Tariff(b.duration) == 200
  {
    var a := SessionRow(1, "P", "Lot A", "Slot 1", 0, Some(10), 60, 0);
    var b := SessionRow(2, "P", "Lot A", "Slot 2", 0, Some(5), 6000, 0);
    assert LatestUnpaidIn([a, b], "P", 1) == Some(0);
    assert LatestUnpaid([a, b], "P") == Some(0);
    var m := MarkPaid([a, b], 1);
    assert m == [a.(paid := 1), b];
    assert LatestUnpaidIn(m, "P", 1) == None;
    assert LatestUnpaid(m, "P") == Some(1);
  }

  /** With unique ids, confirming flips exactly the selected row from 0 to 1 and leaves
      every other row as it was; with nothing pending, the table is unchanged. */
  lemma ConfirmFlipsOneRow(rows: seq<SessionRow>, plate: Option<string>)
    requires UniqueIds(rows)
    ensures var r := ConfirmPayment(rows, plate).rows;
      && |r| == |rows|
      && (!LoggedIn(plate) || LatestUnpaid(rows, plate.value).None? ==> r == rows)
      && (LoggedIn(plate) && LatestUnpaid(rows, plate.value).Some? ==>
            var i := LatestUnpaid(rows, plate.value).value;
            && rows[i].paid == 0 && r[i] == rows[i].(paid := 1)
            && forall j :: 0 <= j < |rows| && j != i ==> r[j] == rows[j])
  {
  }

  /** Confirming settles exactly one unpaid session: afterwards the plate's unpaid rows are
      the earlier ones minus the selected row, and every other plate's are unchanged. */
  lemma ConfirmSettlesOne(rows: seq<SessionRow>, plate: Option<string>)
    requires UniqueIds(rows)
    requires LoggedIn(plate) && LatestUnpaid(rows, plate.value).Some?
    ensures var r := ConfirmPayment(rows, plate).rows; var i := LatestUnpaid(rows, plate.value).value;
      && (forall j :: 0 <= j < |rows| ==> (Unpaid(r[j], plate.value) <==> Unpaid(rows[j], plate.value) && j != i))
      && (forall j, other :: 0 <= j < |rows| && other != plate.value ==>
            (Unpaid(r[j], other) <==> Unpaid(rows[j], other)))
  {
    ConfirmFlipsOneRow(rows, plate);
  }
}

=== FILE: common.dfy ===
/** Shared vocabulary: an option type, the time units, the ASCII character classes
    used by the plate grammar and by the OCR filter, and Python's `str()` of an integer. */
module Common {

  datatype Option<T> = None | Some(value: T)

  /** Every timestamp and time span is an integer count of microseconds, the
      resolution of `datetime`. */
  const MICROS_PER_SECOND := 1_000_000
  const MICROS_PER_MINUTE := 60 * MICROS_PER_SECOND

  /** `[A-Z]` in a regular expression. */
  predicate IsUpper(c: char) { 'A' <= c <= 'Z' }

  /** `\d` and `str.isdigit`, read as ASCII digits. */
  predicate IsDigit(c: char) { '0' <= c <= '9' }

  /** `str.isalpha`, read as ASCII letters. */
  predicate IsAlpha(c: char) { 'A' <= c <= 'Z' || 'a' <= c <= 'z' }

  /** `any(char.isdigit() for char in s)` */
  predicate HasDigit(s: string) { exists i :: 0 <= i < |s| && IsDigit(s[i]) }

  /** `any(char.isalpha() for char in s)` */
  predicate HasAlpha(s: string) { exists i :: 0 <= i < |s| && IsAlpha(s[i]) }

  function DigitChar(d: nat): (c: char)
    requires d < 10
    ensures IsDigit(c)
  {
    (48 + d) as char
  }

  /** Decimal rendering of a natural number, most significant digit first. */
  function NatToString(n: nat): (s: string)
    ensures |s| >= 1
    ensures forall i :: 0 <= i < |s| ==> IsDigit(s[i])
  {
    if n < 10 then [DigitChar(n)] else NatToString(n / 10) + [DigitChar(n % 10)]
  }

  /** Python's `str(i)` for an `int`: a leading minus sign for negative values. */
  function IntToString(i: int): (s: string)
    ensures |s| >= 1
    ensures s[0] == '-' || IsDigit(s[0])
  {
    if i < 0 then "-" + NatToString(-i) else NatToString(i)
  }
}

=== FILE: geometry.dfy ===
/** Intersection-over-Union of two axis-aligned detector rectangles
    (`calculate_iou` in plate_to_num.py). Sizes are integers, the ratio is an
    exact rational; the threshold test is strict `> 0.5`. */
module Geometry {

  /** A detector rectangle: top-left corner `(x, y)` and size `w` by `h`, in pixels. */
  datatype Box = Box(x: int, y: int, w: int, h: int)

  const IOU_THRESHOLD: real := 0.5

  function Max(a: int, b: int): int { if a >= b then a else b }
  function Min(a: int, b: int): int { if a <= b then a else b }

  function Area(b: Box): int { b.w * b.h }

  /** Both sizes non-negative, as the detector produces them. */
  predicate NonNegative(b: Box) { b.w >= 0 && b.h >= 0 }

  /** Width and height of the overlap, clamped at zero. */
  function OverlapWidth(a: Box, b: Box): (r: int)
    ensures r >= 0
  {
    Max(0, Min(a.x + a.w, b.x + b.w) - Max(a.x, b.x))
  }

  function OverlapHeight(a: Box, b: Box): (r: int)
    ensures r >= 0
  {
    Max(0, Min(a.y + a.h, b.y + b.h) - Max(a.y, b.y))
  }

  function Intersection(a: Box, b: Box): (r: int)
    ensures r >= 0
  {
    OverlapWidth(a, b) * OverlapHeight(a, b)
  }

  function Union(a: Box, b: Box): int
  {
    Area(a) + Area(b) - Intersection(a, b)
  }

  /** The ratio; 0 when the union is not positive (the division guard). */
  function Iou(a: Box, b: Box): (r: real)
    ensures r >= 0.0
  {
    if Union(a, b) > 0 then (Intersection(a, b) as real) / (Union(a, b) as real) else 0.0
  }

  /** `iou > iou_threshold` */
  predicate Overlaps(a: Box, b: Box) { Iou(a, b) > IOU_THRESHOLD }

  /** The two rectangles are separated along one axis (they may touch). */
  predicate Separated(a: Box, b: Box)
  {
    a.x + a.w <= b.x || b.x + b.w <= a.x || a.y + a.h <= b.y || b.y + b.h <= a.y
  }

  lemma IouSymmetric(a: Box, b: Box)
    ensures Intersection(a, b) == Intersection(b, a)
    ensures Union(a, b) == Union(b, a)
    ensures Iou(a, b) == Iou(b, a)
  {
    assert OverlapWidth(a, b) == OverlapWidth(b, a);
    assert OverlapHeight(a, b) == OverlapHeight(b, a);
  }

  /** Separated rectangles (and any pair whose union is not positive) score 0. */
  lemma IouZeroWhenApart(a: Box, b: Box)
    requires Separated(a, b) || Union(a, b) <= 0
    ensures Iou(a, b) == 0.0
    ensures !Overlaps(a, b)
  {
    if Separated(a, b) {
      assert OverlapWidth(a, b) == 0 || OverlapHeight(a, b) == 0;
    }
  }

  /** For rectangles of positive size, the overlap is empty exactly when they are separated. */
  lemma IntersectionEmptyIffSeparated(a: Box, b: Box)
    requires a.w > 0 && a.h > 0 && b.w > 0 && b.h > 0
    ensures Intersection(a, b) == 0 <==> Separated(a, b)
  {
    if !Separated(a, b) {
      assert OverlapWidth(a, b) > 0 && OverlapHeight(a, b) > 0;
      MulPositive(OverlapWidth(a, b), OverlapHeight(a, b));
    }
  }

  lemma MulPositive(m: int, n: int)
    requires m > 0 && n > 0
    ensures m * n > 0
  {
  }

  /** A rectangle of positive area overlaps itself with ratio exactly 1. */
  lemma IouSelf(a: Box)
    requires a.w > 0 && a.h > 0
    ensures Intersection(a, a) == Area(a)
    ensures Iou(a, a) == 1.0
    ensures Overlaps(a, a)
  {
    MulPositive(a.w, a.h);
    assert Union(a, a) == Area(a) > 0;
    RatioOfSelf(Area(a));
  }

  lemma RatioOfSelf(n: int)
    requires n > 0
    ensures (n as real) / (n as real) == 1.0
  {
  }

  lemma MulMonotone(m: int, n: int, m': int, n': int)
    requires 0 <= m <= m' && 0 <= n <= n'
    ensures m * n <= m' * n'
  {
    assert m * n <= m' * n;
    assert m' * n <= m' * n';
  }

  /** The overlap never exceeds either rectangle's area when sizes are non-negative. */
  lemma IntersectionWithinAreas(a: Box, b: Box)
    requires NonNegative(a) && NonNegative(b)
    ensures Intersection(a, b) <= Area(a)
    ensures Intersection(a, b) <= Area(b)
  {
    MulMonotone(OverlapWidth(a, b), OverlapHeight(a, b), a.w, a.h);
    MulMonotone(OverlapWidth(a, b), OverlapHeight(a, b), b.w, b.h);
  }

  /** For non-negative sizes the ratio lies in [0, 1]. */
  lemma IouBounded(a: Box, b: Box)
    requires NonNegative(a) && NonNegative(b)
    ensures 0.0 <= Iou(a, b) <= 1.0
  {
    IntersectionWithinAreas(a, b);
    if Union(a, b) > 0 {
      var i, u := Intersection(a, b) as real, Union(a, b) as real;
      assert i <= u;
      assert i / u <= 1.0;
    }
  }

  /** The strict threshold test `iou > 0.5` is the integer test `2 * inter > union`. */
  lemma OverlapsIff(a: Box, b: Box)
    ensures Overlaps(a, b) <==> Union(a, b) > 0 && 2 * Intersection(a, b) > Union(a, b)
  {
    if Union(a, b) > 0 {
      RatioAboveHalf(Intersection(a, b), Union(a, b));
    }
  }

  lemma RatioAboveHalf(i: int, u: int)
    requires u > 0
    ensures (i as real) / (u as real) > 0.5 <==> 2 * i > u
  {
    RealRatioAboveHalf(i as real, u as real);
    assert (2 * i) as real == 2.0 * (i as real);
  }

  lemma RealRatioAboveHalf(i: real, u: real)
    requires u > 0.0
    ensures i / u > 0.5 <==> 2.0 * i > u
  {
    var r := i / u;
    assert r * u == i;
  }
}

=== FILE: ordered_dict.dfy ===
/** A Python `dict` keyed by strings, as the tracker uses it: a finite map
    whose iteration order is insertion order. Assigning to a present key keeps
    its position; `pop` removes the key; inserting an absent key appends it. */
module OrderedDict {

  datatype Dict<V> = Dict(keys: seq<string>, vals: map<string, V>)

  ghost predicate Distinct(ks: seq<string>)
  {
    forall i, j :: 0 <= i < j < |ks| ==> ks[i] != ks[j]
  }

  /** The iteration order lists every key exactly once. */
  ghost predicate Valid<V>(d: Dict<V>)
  {
    && Distinct(d.keys)
    && (forall k :: k in d.vals <==> k in d.keys)
  }

  function Empty<V>(): (d: Dict<V>)
    ensures Valid(d)
    ensures d.keys == [] && d.vals == map[]
  {
    Dict([], map[])
  }

  /** `d[k] = v` */
  function Set<V>(d: Dict<V>, k: string, v: V): (r: Dict<V>)
    ensures Valid(d) ==> Valid(r)
    ensures r.vals == d.vals[k := v]
    ensures k in d.vals ==> r.keys == d.keys
    ensures k !in d.vals ==> r.keys == d.keys + [k]
  {
    if k in d.vals then Dict(d.keys, d.vals[k := v]) else Dict(d.keys + [k], d.vals[k := v])
  }

  /** The key order with `k` taken out, the others in their original order. */
  function Without(ks: seq<string>, k: string): (r: seq<string>)
    ensures forall x :: x in r <==> x in ks && x != k
    ensures Distinct(ks) ==> Distinct(r)
    ensures |r| <= |ks|
  {
    if ks == [] then []
    else
      var rest := Without(ks[1..], k);
      assert Distinct(ks) ==> Distinct(ks[1..]) && ks[0] !in ks[1..];
      if ks[0] == k then rest else [ks[0]] + rest
  }

  /** `d.pop(k, None)` */
  function Pop<V>(d: Dict<V>, k: string): (r: Dict<V>)
    ensures Valid(d) ==> Valid(r)
    ensures r.vals == d.vals - {k}
    ensures r.keys == Without(d.keys, k)
  {
    Dict(Without(d.keys, k), d.vals - {k})
  }

  /** Taking out a key that is absent changes nothing. */
  lemma {:induction false} WithoutAbsent(ks: seq<string>, k: string)
    requires k !in ks
    ensures Without(ks, k) == ks
  {
    if ks != [] {
      WithoutAbsent(ks[1..], k);
      assert [ks[0]] + ks[1..] == ks;
    }
  }

  /** Taking out the key at position `i` of a duplicate-free order removes exactly
      that position and keeps the keys before and after it in order. */
  lemma {:induction false} WithoutAt(ks: seq<string>, i: nat)
    requires Distinct(ks) && i < |ks|
    ensures Without(ks, ks[i]) == ks[..i] + ks[i + 1..]
  {
    if i == 0 {
      assert ks[0] !in ks[1..];
      WithoutAbsent(ks[1..], ks[0]);
    } else {
      var tail := ks[1..];
      assert tail[i - 1] == ks[i];
      assert Distinct(tail);
      WithoutAt(tail, i - 1);
      assert ks[..i] == [ks[0]] + tail[..i - 1];
      assert ks[i + 1..] == tail[i..];
    }
  }

  /** `pop` of a present key removes only its position from the iteration order;
      `pop` of an absent key leaves the dictionary as it was. */
  lemma PopKeepsOrder<V>(d: Dict<V>, i: nat, k: string)
    requires Valid(d)
    ensures i < |d.keys| ==> Pop(d, d.keys[i]).keys == d.keys[..i] + d.keys[i + 1..]
    ensures k !in d.vals ==> Pop(d, k) == d
  {
    if i < |d.keys| {
      WithoutAt(d.keys, i);
    }
    if k !in d.vals {
      WithoutAbsent(d.keys, k);
    }
  }

  /** Insertion order is stable: updating or adding a key never reorders the keys already present. */
  lemma SetKeepsOrder<V>(d: Dict<V>, k: string, v: V)
    ensures d.keys <= Set(d, k, v).keys
    ensures Set(d, k, v).keys[..|d.keys|] == d.keys
  {
  }
}

=== FILE: plate_format.dfy ===
/** The plate grammar of `is_valid_license_plate` (plate_to_num.py):
    `re.match(r"^[A-Z]{2} \d{2} [A-Z]{2} \d{4}$", text)`.
    `\d` is read as an ASCII digit; Python's `$` also matches just before a
    single final newline, and that case is kept. */
module PlateFormat {
  import opened Common

  /** The class of one position of the fixed-width pattern. */
  datatype Class = Upper | Digit | Space

  const PATTERN: seq<Class> :=
    [Upper, Upper, Space, Digit, Digit, Space, Upper, Upper, Space, Digit, Digit, Digit, Digit]

  predicate InClass(c: char, k: Class)
  {
    match k
    case Upper => IsUpper(c)
    case Digit => IsDigit(c)
    case Space => c == ' '
  }

  /** The string matches the pattern position by position, nothing before or after. */
  predicate MatchesPattern(s: string)
  {
    |s| == |PATTERN| && forall i :: 0 <= i < |s| ==> InClass(s[i], PATTERN[i])
  }

  /** The validity test, including the final-newline reading of `$`. */
  predicate IsValidPlate(s: string)
  {
    || MatchesPattern(s)
    || (|s| == |PATTERN| + 1 && s[|PATTERN|] == '\n' && MatchesPattern(s[..|PATTERN|]))
  }

  /** The four groups of a registration mark: state, district, series, number. */
  datatype PlateParts = PlateParts(state: string, district: string, series: string, number: string)

  predicate AllUpper(s: string) { forall i :: 0 <= i < |s| ==> IsUpper(s[i]) }
  predicate AllDigits(s: string) { forall i :: 0 <= i < |s| ==> IsDigit(s[i]) }

  predicate PartsWellFormed(p: PlateParts)
  {
    && |p.state| == 2 && AllUpper(p.state)
    && |p.district| == 2 && AllDigits(p.district)
    && |p.series| == 2 && AllUpper(p.series)
    && |p.number| == 4 && AllDigits(p.number)
  }

  /** The canonical text of a plate: groups joined by single spaces. */
  function Render(p: PlateParts): string
  {
    p.state + " " + p.district + " " + p.series + " " + p.number
  }

  /** The groups at the fixed positions of a pattern match are well formed. */
  lemma GroupsOfMatch(t: string)
    requires MatchesPattern(t)
    ensures PartsWellFormed(PlateParts(t[0..2], t[3..5], t[6..8], t[9..13]))
  {
    forall i | 0 <= i < 2
      ensures IsUpper(t[0..2][i]) && IsDigit(t[3..5][i]) && IsUpper(t[6..8][i])
    {
      assert InClass(t[i], PATTERN[i]) && InClass(t[3 + i], PATTERN[3 + i]) && InClass(t[6 + i], PATTERN[6 + i]);
    }
    forall i | 0 <= i < 4
      ensures IsDigit(t[9..13][i])
    {
      assert InClass(t[9 + i], PATTERN[9 + i]);
    }
  }

  /** The groups at the fixed positions of an accepted text are well formed. */
  lemma GroupsOfValid(s: string)
    requires IsValidPlate(s)
    ensures PartsWellFormed(PlateParts(s[0..2], s[3..5], s[6..8], s[9..13]))
  {
    if MatchesPattern(s) {
      GroupsOfMatch(s);
    } else {
      var t := s[..|PATTERN|];
      GroupsOfMatch(t);
      assert t[0..2] == s[0..2] && t[3..5] == s[3..5] && t[6..8] == s[6..8] && t[9..13] == s[9..13];
    }
  }

  /** Splits an accepted text at the group boundaries; rejects everything else. */
  function Parse(s: string): (r: Option<PlateParts>)
    ensures r.Some? <==> IsValidPlate(s)
    ensures r.Some? ==> PartsWellFormed(r.value)
  {
    if IsValidPlate(s) then
      GroupsOfValid(s);
      Some(PlateParts(s[0..2], s[3..5], s[6..8], s[9..13]))
    else None
  }

  /** Every well-formed plate renders to an accepted text that parses back to it. */
  lemma RenderParses(p: PlateParts)
    requires PartsWellFormed(p)
    ensures IsValidPlate(Render(p))
    ensures Parse(Render(p)) == Some(p)
  {
    var s := Render(p);
    assert |s| == 13;
    assert s[0..2] == p.state && s[3..5] == p.district && s[6..8] == p.series && s[9..13] == p.number;
    forall i | 0 <= i < |s|
      ensures InClass(s[i], PATTERN[i])
    {
      if i < 2 { assert s[i] == p.state[i]; }
      else if 3 <= i < 5 { assert s[i] == p.district[i - 3]; }
      else if 6 <= i < 8 { assert s[i] == p.series[i - 6]; }
      else if 9 <= i { assert s[i] == p.number[i - 9]; }
    }
  }

  /** An accepted text is exactly the rendering of its parts, possibly followed by one newline. */
  lemma ParseRenders(s: string)
    requires IsValidPlate(s)
    ensures s == Render(Parse(s).value) || s == Render(Parse(s).value) + "\n"
  {
    var p := Parse(s).value;
    if MatchesPattern(s) {
      assert s == Render(p);
    } else {
      assert s[..13] == Render(p);
      assert s == s[..13] + "\n";
    }
  }

  /** The newline reading of `$`: a rendered plate followed by "\n" is accepted too. */
  lemma TrailingNewlineAccepted(p: PlateParts)
    requires PartsWellFormed(p)
    ensures IsValidPlate(Render(p) + "\n")
  {
    RenderParses(p);
    assert (Render(p) + "\n")[..13] == Render(p);
  }

  /** Texts longer than the pattern plus one newline, or shorter than it, are rejected. */
  lemma LengthOfAccepted(s: string)
    requires IsValidPlate(s)
    ensures |s| == 13 || (|s| == 14 && s[13] == '\n')
  {
  }

  lemma ExampleAccepted()
    ensures IsValidPlate("KA 18 EQ 0001")
    ensures Parse("KA 18 EQ 0001") == Some(PlateParts("KA", "18", "EQ", "0001"))
  {
    var p := PlateParts("KA", "18", "EQ", "0001");
    assert Render(p) == "KA 18 EQ 0001";
    RenderParses(p);
  }

  /** The unspaced form used in the alert demo is not a plate in this grammar. */
  lemma UnspacedRejected()
    ensures !IsValidPlate("KA01AB1234")
    ensures !IsValidPlate("")
  {
  }
}

=== FILE: records.dfy ===
/** The database rows and HTTP outcomes shared by the web routes of app.py and the
    poller of session_alert.py. Times are integer microseconds. A session's
    `duration` is counted in whole seconds: the source stores float seconds and
    bills by their floor division by 60, which whole seconds leave unchanged. */
module Records {
  import opened Common

  /** A row of `parking_sessions`; `end` is NULL while the vehicle is parked,
      `paid` is the integer flag the queries compare with 0. */
  datatype SessionRow = SessionRow(
    id: int, plate: string, lot: string, slot: string,
    start: int, end: Option<int>, duration: int, paid: int)

  /** A row of `reservations`. */
  datatype Reservation = Reservation(plate: string, lot: string, slot: string, expiry: int)

  /** What a route sends back: a redirect, a rendered page, or nothing at all
      (a view that falls off its end). */
  datatype Response =
    | ToLogin
    | ToLots
    | ToPayment
    | ToThankYou(booking: Reservation)
    | LotsPage(lots: seq<string>)
    | BillPage(row: SessionRow, amount: int)
    | NoResponse

  /** `if not license_plate:` on the cookie session's value: missing or empty. */
  predicate LoggedIn(plate: Option<string>)
  {
    plate.Some? && plate.value != ""
  }

  /** `id` is the primary key of `parking_sessions`. */
  ghost predicate UniqueIds(rows: seq<SessionRow>)
  {
    forall i, j :: 0 <= i < j < |rows| ==> rows[i].id != rows[j].id
  }
}

=== FILE: reservations.dfy ===
/** Reservations in app.py: the `reserve` route with its unpaid-session gate and
    ten-minute hold, the slot-status map of `slots`, and the entry decision of
    `validate_entry`. The reservation table is a sequence in table order, which
    is also the order the queries are taken to return rows in. */
module Reservations {
  import opened Common
  import opened Records
  import Billing

  /** `timedelta(minutes=10)` */
  const HOLD_MINUTES := 10
  /** How long a new reservation holds its slot, in microseconds. */
  const HOLD_PERIOD := HOLD_MINUTES * MICROS_PER_MINUTE
  /** The eight slot names every lot shows. */
  const SLOT_NAMES := ["Slot 1", "Slot 2", "Slot 3", "Slot 4", "Slot 5", "Slot 6", "Slot 7", "Slot 8"]

  // ---------------------------------------------------------------- reserve

  /** The outcome of `reserve`: the response and the reservation table afterwards. */
  datatype Reserved = Reserved(response: Response, reservations: seq<Reservation>)

  /** The `reserve` route. `insertOk` is whether the database accepted the INSERT; on
      failure the view flashes a message and returns nothing. */
  function Reserve(sessions: seq<SessionRow>, reservations: seq<Reservation>, plate: Option<string>,
                   lot: string, slot: string, now: int, insertOk: bool): (r: Reserved)
    ensures r.response == ToLogin <==> !LoggedIn(plate)
    ensures r.response == ToPayment <==> LoggedIn(plate) && Billing.HasUnpaid(sessions, plate.value)
    ensures r.response.ToThankYou? <==> LoggedIn(plate) && !Billing.HasUnpaid(sessions, plate.value) && insertOk
    ensures r.response.ToThankYou? ==>
              && r.reservations == reservations + [r.response.booking]
              && r.response.booking.plate == plate.value
              && r.response.booking.lot == lot && r.response.booking.slot == slot
              && r.response.booking.expiry - now == HOLD_PERIOD
    ensures !r.response.ToThankYou? ==> r.reservations == reservations
  {
    if !LoggedIn(plate) then Reserved(ToLogin, reservations)
    else if Billing.HasUnpaid(sessions, plate.value) then Reserved(ToPayment, reservations)
    else
      var booking := Reservation(plate.value, lot, slot, now + HOLD_PERIOD);
      if insertOk then Reserved(ToThankYou(booking), reservations + [booking])
      else Reserved(NoResponse, reservations)
  }

  /** `reserve` refuses (to payment) exactly when `lots` does, and then changes nothing;
      a reservation is only ever added for the logged-in plate, expiring ten minutes
      after the request. */
  lemma ReserveGate(sessions: seq<SessionRow>, reservations: seq<Reservation>, plate: Option<string>,
                    lot: string, slot: string, now: int, insertOk: bool)
    ensures var r := Reserve(sessions, reservations, plate, lot, slot, now, insertOk);
      && (r.response == ToPayment <==> Billing.Lots(sessions, plate) == ToPayment)
      && (r.response.ToThankYou? <==>
            LoggedIn(plate) && !Billing.HasUnpaid(sessions, plate.value) && insertOk)
      && (r.response.ToThankYou? ==>
            && r.reservations == reservations + [r.response.booking]
            && r.response.booking == Reservation(plate.value, lot, slot, now + HOLD_PERIOD))
      && (!r.response.ToThankYou? ==> r.reservations == reservations)
  {
  }

  // ---------------------------------------------------------------- slots

  /** `WHERE lot_name = %s AND reservation_expiry > NOW()` */
  predicate ActiveIn(r: Reservation, lot: string, now: int)
  {
    r.lot == lot && r.expiry > now
  }

  function ActiveFor(reservations: seq<Reservation>, lot: string, now: int): (r: seq<Reservation>)
    ensures forall x :: x in r <==> x in reservations && ActiveIn(x, lot, now)
  {
    if reservations == [] then []
    else if ActiveIn(reservations[0], lot, now) then [reservations[0]] + ActiveFor(reservations[1..], lot, now)
    else ActiveFor(reservations[1..], lot, now)
  }

  /** `f'Slot {i}'` */
  function SlotName(i: int): string
  {
    "Slot " + IntToString(i)
  }

  /** The f-string spells the names of `range(1, 9)` as the eight slot names, in order. */
  lemma SlotNamesSpelled()
    ensures forall i :: 1 <= i < 9 ==> SlotName(i) == SLOT_NAMES[i - 1]
  {
    assert SlotName(1) == "Slot 1" && SlotName(2) == "Slot 2" && SlotName(3) == "Slot 3" && SlotName(4) == "Slot 4";
    assert SlotName(5) == "Slot 5" && SlotName(6) == "Slot 6" && SlotName(7) == "Slot 7" && SlotName(8) == "Slot 8";
  }

  /** `{f'Slot {i}': None for i in range(1, 9)}`: exactly the eight slot names, all free. */
  function DefaultSlots(): (m: map<string, Option<int>>)
    ensures forall k :: k in m <==> k in SLOT_NAMES
    ensures forall k :: k in m ==> m[k] == None
  {
    SlotNamesSpelled();
    assert forall k :: k in SLOT_NAMES ==> exists i :: 1 <= i < 9 && SlotName(i) == k by {
      forall k | k in SLOT_NAMES
        ensures exists i :: 1 <= i < 9 && SlotName(i) == k
      {
        var j :| 0 <= j < |SLOT_NAMES| && SLOT_NAMES[j] == k;
        assert SlotName(j + 1) == k;
      }
    }
    map i | 1 <= i < 9 :: SlotName(i) := None
  }

  /** The loop `slots[reservation['slot_name']] = expiry_datetime`, in row order. */
  function Fill(m: map<string, Option<int>>, rs: seq<Reservation>): map<string, Option<int>>
    decreases |rs|
  {
    if rs == [] then m else Fill(m[rs[0].slot := Some(rs[0].expiry)], rs[1..])
  }

  /** Some row of `rs` reserves slot `k`. */
  ghost predicate Occupies(rs: seq<Reservation>, k: string)
  {
    exists i :: 0 <= i < |rs| && rs[i].slot == k
  }

  /** Row `i` is the last row of `rs` for its slot. */
  ghost predicate LastFor(rs: seq<Reservation>, i: int)
  {
    0 <= i < |rs| && forall j :: i < j < |rs| ==> rs[j].slot != rs[i].slot
  }

  /** Every reserved slot has a last row. */
  lemma {:induction false} LastExists(rs: seq<Reservation>, j: int)
    requires 0 <= j < |rs|
    ensures exists i :: LastFor(rs, i) && rs[i].slot == rs[j].slot
    decreases |rs| - j
  {
    if !LastFor(rs, j) {
      var j' :| j < j' < |rs| && rs[j'].slot == rs[j].slot;
      LastExists(rs, j');
    }
  }

  /** The slot-status map of the `slots` route: every one of the eight slots is shown;
      a slot is free exactly when it is one of the eight and no active reservation of
      the lot names it; a slot that is not free shows the expiry of an active
      reservation of the lot for that very slot. */
  function Slots(reservations: seq<Reservation>, lot: string, now: int): (r: map<string, Option<int>>)
    ensures forall k :: k in SLOT_NAMES ==> k in r
    ensures forall k :: k in r && r[k].None? <==>
              k in SLOT_NAMES && forall x :: x in reservations && ActiveIn(x, lot, now) ==> x.slot != k
    ensures forall k :: k in r && r[k].Some? ==>
              exists x :: x in reservations && ActiveIn(x, lot, now) && x.slot == k && r[k] == Some(x.expiry)
  {
    FilledSlots(reservations, lot, now);
    Fill(DefaultSlots(), ActiveFor(reservations, lot, now))
  }

  /** The fill loop keeps every key it starts with, adds the reserved slots, leaves
      unreserved keys alone, and gives every reserved slot the expiry of its last row. */
  lemma {:induction false} FillSpec(m: map<string, Option<int>>, rs: seq<Reservation>)
    ensures forall k :: k in Fill(m, rs) <==> k in m || Occupies(rs, k)
    ensures forall k :: k in m && !Occupies(rs, k) ==> Fill(m, rs)[k] == m[k]
    ensures forall i :: LastFor(rs, i) ==>
              rs[i].slot in Fill(m, rs) && Fill(m, rs)[rs[i].slot] == Some(rs[i].expiry)
    decreases |rs|
  {
    if rs != [] {
      var m' := m[rs[0].slot := Some(rs[0].expiry)];
      var tail := rs[1..];
      FillSpec(m', tail);
      forall k
        ensures Occupies(rs, k) <==> k == rs[0].slot || Occupies(tail, k)
      {
        if Occupies(rs, k) && k != rs[0].slot {
          var i :| 0 <= i < |rs| && rs[i].slot == k;
          assert tail[i - 1].slot == k;
        }
        if Occupies(tail, k) {
          var i :| 0 <= i < |tail| && tail[i].slot == k;
          assert rs[i + 1].slot == k;
        }
      }
      forall i | LastFor(rs, i)
        ensures rs[i].slot in Fill(m, rs) && Fill(m, rs)[rs[i].slot] == Some(rs[i].expiry)
      {
        if i == 0 {
          assert forall j :: 0 <= j < |tail| ==> tail[j].slot == rs[j + 1].slot;
        } else {
          assert LastFor(tail, i - 1);
        }
      }
    }
  }

  /** The facts `Slots` promises, about the fill of the default map. */
  lemma FilledSlots(reservations: seq<Reservation>, lot: string, now: int)
    ensures var act := ActiveFor(reservations, lot, now); var m := Fill(DefaultSlots(), act);
      && (forall k :: k in SLOT_NAMES ==> k in m)
      && (forall k :: k in m && m[k].None? <==>
            k in SLOT_NAMES && forall x :: x in reservations && ActiveIn(x, lot, now) ==> x.slot != k)
      && (forall k :: k in m && m[k].Some? ==>
            exists x :: x in reservations && ActiveIn(x, lot, now) && x.slot == k && m[k] == Some(x.expiry))
  {
    var act := ActiveFor(reservations, lot, now);
    var m := Fill(DefaultSlots(), act);
    FillSpec(DefaultSlots(), act);
    forall k | Occupies(act, k)
      ensures k in m && m[k].Some? && exists x :: x in reservations && ActiveIn(x, lot, now) && x.slot == k && m[k] == Some(x.expiry)
    {
      var j :| 0 <= j < |act| && act[j].slot == k;
      LastExists(act, j);
      var i :| LastFor(act, i) && act[i].slot == k;
      assert act[i] in act;
    }
    forall k | k in m && !Occupies(act, k)
      ensures k in SLOT_NAMES && m[k].None?
      ensures forall x :: x in reservations && ActiveIn(x, lot, now) ==> x.slot != k
    {
      forall x | x in reservations && ActiveIn(x, lot, now)
        ensures x.slot != k
      {
        assert x in act;
        var i :| 0 <= i < |act| && act[i] == x;
      }
    }
  }

  /** The map has exactly the keys "Slot 1".."Slot 8" plus any other slot name an active
      reservation uses; a slot without an active reservation is empty; a reserved slot
      holds the expiry of its last active reservation, later rows overwriting earlier ones. */
  lemma SlotsSpec(reservations: seq<Reservation>, lot: string, now: int)
    ensures var m := Slots(reservations, lot, now); var act := ActiveFor(reservations, lot, now);
      && (forall k :: k in m <==> k in SLOT_NAMES || Occupies(act, k))
      && (forall k :: k in SLOT_NAMES && !Occupies(act, k) ==> m[k] == None)
      && (forall i :: LastFor(act, i) ==> act[i].slot in m && m[act[i].slot] == Some(act[i].expiry))
  {
    FillSpec(DefaultSlots(), ActiveFor(reservations, lot, now));
  }

  /** A reservation just made shows on the slot map of its lot, with its own expiry,
      for the whole ten-minute hold. */
  lemma NewReservationShown(sessions: seq<SessionRow>, reservations: seq<Reservation>, plate: Option<string>,
                            lot: string, slot: string, now: int, t: int)
    requires Reserve(sessions, reservations, plate, lot, slot, now, true).response.ToThankYou?
    requires now <= t < now + HOLD_PERIOD
    ensures var r := Reserve(sessions, reservations, plate, lot, slot, now, true);
      && slot in Slots(r.reservations, lot, t)
      && Slots(r.reservations, lot, t)[slot] == Some(now + HOLD_PERIOD)
  {
    var r := Reserve(sessions, reservations, plate, lot, slot, now, true);
    var booking := r.response.booking;
    ActiveAppend(reservations, booking, lot, t);
    var act := ActiveFor(r.reservations, lot, t);
    SlotsSpec(r.reservations, lot, t);
    assert LastFor(act, |act| - 1);
  }

  lemma {:induction false} ActiveAppend(rs: seq<Reservation>, x: Reservation, lot: string, now: int)
    requires ActiveIn(x, lot, now)
    ensures ActiveFor(rs + [x], lot, now) == ActiveFor(rs, lot, now) + [x]
    decreases |rs|
  {
    if rs == [] {
      assert [x][1..] == [];
    } else {
      assert (rs + [x])[1..] == rs[1..] + [x];
      ActiveAppend(rs[1..], x, lot, now);
    }
  }

  // ---------------------------------------------------------------- entry check

  /** `SELECT * FROM reservations WHERE lot_name = %s AND slot_name = %s
      AND reservation_expiry > NOW()` followed by `fetchone()`. */
  function ActiveReservation(reservations: seq<Reservation>, lot: string, slot: string, now: int): (r: Option<Reservation>)
    ensures r.None? <==> forall i :: 0 <= i < |reservations| ==>
              !(ActiveIn(reservations[i], lot, now) && reservations[i].slot == slot)
    ensures r.Some? ==> ActiveIn(r.value, lot, now) && r.value.slot == slot
    ensures r.Some? ==> exists i :: (0 <= i < |reservations| && reservations[i] == r.value
              && forall j :: 0 <= j < i ==> !(ActiveIn(reservations[j], lot, now) && reservations[j].slot == slot))
  {
    if reservations == [] then None
    else if ActiveIn(reservations[0], lot, now) && reservations[0].slot == slot then Some(reservations[0])
    else
      var r := ActiveReservation(reservations[1..], lot, slot, now);
      if r.Some? then
        var i :| 0 <= i < |reservations[1..]| && reservations[1..][i] == r.value
          && forall j :: 0 <= j < i ==> !(ActiveIn(reservations[1..][j], lot, now) && reservations[1..][j].slot == slot);
        assert reservations[i + 1] == r.value;
        r
      else r
  }

  /** The flash category `validate_entry` chooses. */
  datatype EntryCheck = NoReservation | PlateMatches | PlateMismatch

  /** The event handed to the alerting channel: the captured and the reserved plate. */
  datatype Alert = Alert(actual: string, reserved: string)

  datatype EntryOutcome = EntryOutcome(check: EntryCheck, alerts: seq<Alert>, response: Response)

  /** The decision of `validate_entry` given the reservation found for the lot and slot. */
  function ValidateEntry(actual: string, reservation: Option<Reservation>): (r: EntryOutcome)
    ensures r.response == ToLots
  {
    match reservation
    case None => EntryOutcome(NoReservation, [], ToLots)
    case Some(res) =>
      if actual != res.plate then EntryOutcome(PlateMismatch, [Alert(actual, res.plate)], ToLots)
      else EntryOutcome(PlateMatches, [], ToLots)
  }

  /** An alert is sent exactly once when a reservation exists for another plate, and
      never otherwise; it carries both plates; every path redirects to lots. */
  lemma EntryAlertIff(actual: string, reservation: Option<Reservation>)
    ensures var r := ValidateEntry(actual, reservation);
      && |r.alerts| <= 1
      && (|r.alerts| == 1 <==> reservation.Some? && reservation.value.plate != actual)
      && (|r.alerts| == 1 ==> r.alerts[0] == Alert(actual, reservation.value.plate))
      && (r.check == NoReservation <==> reservation.None?)
      && r.response == ToLots
  {
  }

  /** The entry check as the route intends it: look up the first active reservation
      of the lot and slot, then decide. */
  function EntryRoute(reservations: seq<Reservation>, actual: string, lot: string, slot: string, now: int): (r: EntryOutcome)
    ensures r.response == ToLots
    ensures |r.alerts| <= 1
    ensures r.check == NoReservation <==>
              forall x :: x in reservations ==> !(ActiveIn(x, lot, now) && x.slot == slot)
    ensures forall a :: a in r.alerts ==>
              && a.actual == actual && a.reserved != actual
              && exists x :: x in reservations && ActiveIn(x, lot, now) && x.slot == slot && x.plate == a.reserved
  {
    ValidateEntry(actual, ActiveReservation(reservations, lot, slot, now))
  }

  /** The route alerts exactly when an active reservation for the lot and slot exists
      and the first one is for a different plate. */
  lemma EntryRouteAlerts(reservations: seq<Reservation>, actual: string, lot: string, slot: string, now: int)
    ensures var r := EntryRoute(reservations, actual, lot, slot, now);
      |r.alerts| == 1 <==>
        exists i :: 0 <= i < |reservations| && ActiveIn(reservations[i], lot, now) && reservations[i].slot == slot
          && reservations[i].plate != actual
          && forall j :: 0 <= j < i ==> !(ActiveIn(reservations[j], lot, now) && reservations[j].slot == slot)
  {
    var res := ActiveReservation(reservations, lot, slot, now);
    EntryAlertIff(actual, res);
    if res.Some? {
      var i :| 0 <= i < |reservations| && reservations[i] == res.value
              && forall j :: 0 <= j < i ==> !(ActiveIn(reservations[j], lot, now) && reservations[j].slot == slot);
      forall i' | 0 <= i' < |reservations| && ActiveIn(reservations[i'], lot, now) && reservations[i'].slot == slot
                  && forall j :: 0 <= j < i' ==> !(ActiveIn(reservations[j], lot, now) && reservations[j].slot == slot)
        ensures i' == i
      {
      }
    }
  }

  /** What a query leaves in the program's hands: the matched rows behind an open
      cursor, or the plain row count that pymysql's `Cursor.execute` returns. */
  datatype Value = RowCount(n: nat) | Cursor(pending: seq<Reservation>)

  /** The outcome of `.fetchone()`: an exception, or the next row if there is one. */
  datatype Fetched = Raised | Fetched(row: Option<Reservation>)

  /** The rows `SELECT * FROM reservations WHERE lot_name = %s AND slot_name = %s AND
      reservation_expiry > NOW()` matches, in table order. */
  function Matching(reservations: seq<Reservation>, lot: string, slot: string, now: int): (r: seq<Reservation>)
    ensures forall x :: x in r <==> x in reservations && ActiveIn(x, lot, now) && x.slot == slot
  {
    if reservations == [] then []
    else if ActiveIn(reservations[0], lot, now) && reservations[0].slot == slot
    then [reservations[0]] + Matching(reservations[1..], lot, slot, now)
    else Matching(reservations[1..], lot, slot, now)
  }

  /** `cursor.execute(query, params)` returns the number of matched rows, not the cursor. */
  function Execute(reservations: seq<Reservation>, lot: string, slot: string, now: int): (v: Value)
    ensures v.RowCount? && v.n <= |reservations|
  {
    MatchingBound(reservations, lot, slot, now);
    RowCount(|Matching(reservations, lot, slot, now)|)
  }

  lemma {:induction false} MatchingBound(reservations: seq<Reservation>, lot: string, slot: string, now: int)
    ensures |Matching(reservations, lot, slot, now)| <= |reservations|
    decreases |reservations|
  {
    if reservations != [] {
      MatchingBound(reservations[1..], lot, slot, now);
    }
  }

  /** `.fetchone()`: an `int` has no such attribute; a cursor yields its first pending
      row, or `None` when there is none. */
  function FetchOne(v: Value): (r: Fetched)
    ensures r.Raised? <==> v.RowCount?
    ensures v.Cursor? && v.pending != [] ==> r == Fetched(Some(v.pending[0]))
    ensures v.Cursor? && v.pending == [] ==> r == Fetched(None)
  {
    match v
    case RowCount(_) => Raised
    case Cursor(pending) => if pending == [] then Fetched(None) else Fetched(Some(pending[0]))
  }

  /** Fetching from the cursor, as the route intends, yields the first active reservation
      of the lot and slot. */
  lemma {:induction false} CursorFetchesFirstMatch(reservations: seq<Reservation>, lot: string, slot: string, now: int)
    ensures FetchOne(Cursor(Matching(reservations, lot, slot, now)))
         == Fetched(ActiveReservation(reservations, lot, slot, now))
    decreases |reservations|
  {
    if reservations != [] && !(ActiveIn(reservations[0], lot, now) && reservations[0].slot == slot) {
      CursorFetchesFirstMatch(reservations[1..], lot, slot, now);
    }
  }

  datatype RouteResult = Crashed | Completed(outcome: EntryOutcome)

  /** The route as written calls `.fetchone()` on what `cursor.execute` returns, which
      under pymysql is the row count, so the call raises before the decision is reached
      and the request ends in a server error. */
  function EntryRouteAsWritten(reservations: seq<Reservation>, actual: string, lot: string, slot: string, now: int): (r: RouteResult)
    ensures r == Crashed
  {
    match FetchOne(Execute(reservations, lot, slot, now))
    case Raised => Crashed
    case Fetched(res) => Completed(ValidateEntry(actual, res))
  }

  /** The same route with `.fetchone()` applied to the cursor completes on every request,
      with the outcome of `EntryRoute`. */
  lemma EntryRouteCorrected(reservations: seq<Reservation>, actual: string, lot: string, slot: string, now: int)
    ensures (match FetchOne(Cursor(Matching(reservations, lot, slot, now)))
             case Raised => Crashed
             case Fetched(res) => Completed(ValidateEntry(actual, res)))
         == Completed(EntryRoute(reservations, actual, lot, slot, now))
  {
    CursorFetchesFirstMatch(reservations, lot, slot, now);
  }

  /** On every request the route as written fails to produce the outcome the intended
      route decides, so no alert is ever sent from it. */
  lemma EntryDefect(reservations: seq<Reservation>, actual: string, lot: string, slot: string, now: int)
    ensures EntryRouteAsWritten(reservations, actual, lot, slot, now)
         != Completed(EntryRoute(reservations, actual, lot, slot, now))
    ensures !EntryRouteAsWritten(reservations, actual, lot, slot, now).Completed?
  {
  }

  /** The two disagree on every request; on a mismatching reservation the intended route
      alerts and the written one does not. */
  lemma EntryDefectExample()
    ensures var rs := [Reservation("Unregistered", "Lot A", "Slot 1", 100)];
      && EntryRoute(rs, "KA01AB1234", "Lot A", "Slot 1", 0).alerts == [Alert("KA01AB1234", "Unregistered")]
      && EntryRouteAsWritten(rs, "KA01AB1234", "Lot A", "Slot 1", 0) == Crashed
  {
  }
}

=== FILE: session_alert.dfy ===
/** One poll of `process_sessions` in session_alert.py: select the open sessions not
    yet processed, attempt a mismatch alert for each whose plate is not the expected
    one, and record each as processed. The `parking_sessions` table is a sequence of
    rows in table order; `processed_sessions` is the set of ids it holds. */
module SessionAlert {
  import opened Common
  import opened Records
  import PlateFormat

  const EXPECTED_PLATE := "KA 18 EQ 0001"

  /** The alert handed to the messaging channel: which session, what was seen, what
      was expected, and where. */
  datatype MismatchAlert = MismatchAlert(id: int, detected: string, expected: string, lot: string, slot: string)

  /** `WHERE ps.end_time IS NULL AND ps.id NOT IN (SELECT id FROM processed_sessions)` */
  predicate Open(r: SessionRow, processed: set<int>)
  {
    r.end.None? && r.id !in processed
  }

  /** The rows the poll's query returns, in table order. */
  function Pending(rows: seq<SessionRow>, processed: set<int>): (r: seq<SessionRow>)
    ensures |r| <= |rows|
    ensures forall x :: x in r <==> x in rows && Open(x, processed)
  {
    if rows == [] then []
    else if Open(rows[0], processed) then [rows[0]] + Pending(rows[1..], processed)
    else Pending(rows[1..], processed)
  }

  predicate Mismatch(r: SessionRow)
  {
    r.plate != EXPECTED_PLATE
  }

  function AlertOf(r: SessionRow): MismatchAlert
  {
    MismatchAlert(r.id, r.plate, EXPECTED_PLATE, r.lot, r.slot)
  }

  /** What the loop over the fetched rows does: the ids it manages to insert into
      `processed_sessions` and the alerts it attempts, in order. `insertFails` holds
      the ids whose insert raises; a failed alert send does not stop the insert. */
  datatype Examined = Examined(marked: set<int>, alerts: seq<MismatchAlert>)

  function Examine(pending: seq<SessionRow>, insertFails: set<int>): (r: Examined)
    ensures |r.alerts| <= |pending|
    ensures forall id :: id in r.marked ==> id !in insertFails && HasId(pending, id)
    ensures forall a :: a in r.alerts ==> AlertedBy(pending, a)
  {
    if pending == [] then Examined({}, [])
    else
      var s := pending[0];
      var rest := Examine(pending[1..], insertFails);
      var alert := if Mismatch(s) then [AlertOf(s)] else [];
      var marked := if s.id in insertFails then rest.marked else rest.marked + {s.id};
      Examined(marked, alert + rest.alerts)
  }

  /** Some row of `pending` has the id. */
  ghost predicate HasId(pending: seq<SessionRow>, id: int)
  {
    exists i :: 0 <= i < |pending| && pending[i].id == id
  }

  /** Some mismatching row of `pending` produces the alert. */
  ghost predicate AlertedBy(pending: seq<SessionRow>, a: MismatchAlert)
  {
    exists i :: 0 <= i < |pending| && Mismatch(pending[i]) && a == AlertOf(pending[i])
  }

  /** The marked ids are exactly those of the examined rows whose insert succeeded,
      matched or not; an alert is attempted for exactly the examined rows whose plate
      differs from the expected one, at most one per row. */
  lemma {:induction false} ExamineSpec(pending: seq<SessionRow>, insertFails: set<int>)
    ensures var e := Examine(pending, insertFails);
      && (forall id :: id in e.marked <==> id !in insertFails && HasId(pending, id))
      && (forall a :: a in e.alerts <==> AlertedBy(pending, a))
      && |e.alerts| <= |pending|
    decreases |pending|
  {
    if pending != [] {
      var tail := pending[1..];
      ExamineSpec(tail, insertFails);
      forall id
        ensures HasId(pending, id) <==> pending[0].id == id || HasId(tail, id)
      {
        if HasId(tail, id) {
          var i :| 0 <= i < |tail| && tail[i].id == id;
          assert pending[i + 1].id == id;
        }
        if HasId(pending, id) {
          var i :| 0 <= i < |pending| && pending[i].id == id;
          if i > 0 { assert tail[i - 1].id == id; }
        }
      }
      forall a
        ensures AlertedBy(pending, a) <==> (Mismatch(pending[0]) && a == AlertOf(pending[0])) || AlertedBy(tail, a)
      {
        if AlertedBy(tail, a) {
          var i :| 0 <= i < |tail| && Mismatch(tail[i]) && a == AlertOf(tail[i]);
          assert pending[i + 1] == tail[i];
        }
        if AlertedBy(pending, a) {
          var i :| 0 <= i < |pending| && Mismatch(pending[i]) && a == AlertOf(pending[i]);
          if i > 0 { assert tail[i - 1] == pending[i]; }
        }
      }
    }
  }

  /** The state a poll leaves behind and what it did. */
  datatype Poll = Poll(processed: set<int>, examined: seq<SessionRow>, alerts: seq<MismatchAlert>)

  /** One pass of the `while True` body with a working connection. The query is read in
      full before the loop, so rows marked during the pass do not change what it examines. */
  function PollOnce(rows: seq<SessionRow>, processed: set<int>, insertFails: set<int>): (r: Poll)
    ensures processed <= r.processed
    ensures forall id :: id in r.processed && id !in processed ==> id !in insertFails
    ensures forall x :: x in r.examined <==> x in rows && Open(x, processed)
    ensures |r.alerts| <= |r.examined| <= |rows|
  {
    var pending := Pending(rows, processed);
    var e := Examine(pending, insertFails);
    Poll(processed + e.marked, pending, e.alerts)
  }

  /** The properties of a single poll: which rows it examines, which alerts it attempts,
      and how the processed set changes. */
  lemma PollSpec(rows: seq<SessionRow>, processed: set<int>, insertFails: set<int>)
    ensures var p := PollOnce(rows, processed, insertFails);
      && (forall x :: x in p.examined <==> x in rows && x.end.None? && x.id !in processed)
      && (forall a :: a in p.alerts <==> exists x :: x in p.examined && x.plate != EXPECTED_PLATE && a == AlertOf(x))
      && processed <= p.processed
      && (forall id :: id in p.processed <==>
            id in processed || (id !in insertFails && exists x :: x in p.examined && x.id == id))
  {
    var p := PollOnce(rows, processed, insertFails);
    ExamineSpec(p.examined, insertFails);
    forall a | a in p.alerts
      ensures exists x :: x in p.examined && x.plate != EXPECTED_PLATE && a == AlertOf(x)
    {
      var i :| 0 <= i < |p.examined| && Mismatch(p.examined[i]) && a == AlertOf(p.examined[i]);
      assert p.examined[i] in p.examined;
    }
    forall id | id !in processed && id !in insertFails && (exists x :: x in p.examined && x.id == id)
      ensures id in p.processed
    {
      var x :| x in p.examined && x.id == id;
      var i :| 0 <= i < |p.examined| && p.examined[i] == x;
    }
  }

  /** A session matching the expected plate never causes an alert, and a session with any
      other plate always causes one, when the poll examines it. */
  lemma AlertIffMismatch(rows: seq<SessionRow>, processed: set<int>, insertFails: set<int>, x: SessionRow)
    requires x in rows && x.end.None? && x.id !in processed
    ensures AlertOf(x) in PollOnce(rows, processed, insertFails).alerts <==> x.plate != EXPECTED_PLATE
  {
    PollSpec(rows, processed, insertFails);
  }

  /** With every insert succeeding, a second poll over the same table examines nothing
      and attempts no alert. */
  lemma SecondPollQuiet(rows: seq<SessionRow>, processed: set<int>, insertFails: set<int>)
    ensures var first := PollOnce(rows, processed, {});
      var second := PollOnce(rows, first.processed, insertFails);
      second.examined == [] && second.alerts == [] && second.processed == first.processed
  {
    var first := PollOnce(rows, processed, {});
    PollSpec(rows, processed, {});
    var second := PollOnce(rows, first.processed, insertFails);
    PollSpec(rows, first.processed, insertFails);
    forall x | x in rows && x.end.None?
      ensures x.id in first.processed
    {
      if x.id !in processed {
        assert x in first.examined;
      }
    }
  }

  /** Across two polls, whatever happened to the table in between, a session is examined
      a second time only if its first insert failed. */
  lemma ExaminedAtMostOnce(rows1: seq<SessionRow>, rows2: seq<SessionRow>, processed: set<int>,
                           fails1: set<int>, fails2: set<int>, x: SessionRow, y: SessionRow)
    requires x in PollOnce(rows1, processed, fails1).examined
    requires y in PollOnce(rows2, PollOnce(rows1, processed, fails1).processed, fails2).examined
    requires x.id == y.id
    ensures x.id in fails1
  {
    PollSpec(rows1, processed, fails1);
    PollSpec(rows2, PollOnce(rows1, processed, fails1).processed, fails2);
  }

  /** A session whose insert failed stays unprocessed and, while still open, is examined
      again by the next poll. */
  lemma FailedInsertRetried(rows: seq<SessionRow>, processed: set<int>, fails1: set<int>, fails2: set<int>, x: SessionRow)
    requires x in PollOnce(rows, processed, fails1).examined
    requires x.id in fails1
    ensures x.id !in PollOnce(rows, processed, fails1).processed
    ensures x in PollOnce(rows, PollOnce(rows, processed, fails1).processed, fails2).examined
  {
    PollSpec(rows, processed, fails1);
    PollSpec(rows, PollOnce(rows, processed, fails1).processed, fails2);
  }

  /** The expected plate is itself a plate the tracker accepts, and the sample row the
      script inserts on start-up is one the poll alerts on. */
  lemma ExpectedPlateExample()
    ensures PlateFormat.IsValidPlate(EXPECTED_PLATE)
    ensures var row := SessionRow(1, "CG 19 EQ 0001", "Lot_A", "Slot_1", 0, None, 0, 0);
      PollOnce([row], {}, {}) == Poll({1}, [row], [MismatchAlert(1, "CG 19 EQ 0001", EXPECTED_PLATE, "Lot_A", "Slot_1")])
  {
    PlateFormat.ParseRenders(EXPECTED_PLATE);
  }
}

=== FILE: tracker.dfy ===
/** The per-frame plate tracker of plate_to_num.py (the body of its `while` loop),
    as a pure transition `Step(state, detections, now) -> (state', saved sessions)`.

    The detector's rectangles and, for each of them, the strings the OCR reader
    would return for its crop are inputs (`Detection`); the wall clock is one
    integer timestamp per frame, in microseconds (the resolution of `datetime`).
    The four module-level structures of the source are the four fields of `State`;
    the two that the loop iterates over keep Python's insertion order. */
module Tracker {
  import opened Common
  import opened Geometry
  import opened PlateFormat
  import D = OrderedDict

  /** `min_area`: a rectangle must have a strictly larger area to be considered. */
  const MIN_AREA := 500
  /** `grace_period = timedelta(seconds=3)` */
  const GRACE_PERIOD := 3 * MICROS_PER_SECOND
  /** `if duration > 30` */
  const MIN_DWELL := 30 * MICROS_PER_SECOND
  /** Placeholders written with every saved session. */
  const LOT_PLACEHOLDER := "Lot_A"
  const SLOT_PLACEHOLDER := "Slot_1"

  /** One detector rectangle and what the OCR reader returns for its crop. */
  datatype Detection = Detection(box: Box, ocr: seq<string>)

  datatype State = State(
    activeTimers: map<string, int>,  // plate -> entry time
    lastSeen: D.Dict<int>,           // plate -> time of the latest validated detection
    lastBoxes: D.Dict<Box>,          // plate -> latest rectangle, the one matched against
    inView: set<string>)             // plates already announced as "still in view"

  /** A row handed to `save_parking_session`; durations in microseconds. */
  datatype Session = Session(plate: string, lot: string, slot: string, start: int, end: int, duration: int)

  /** Progress through the detections of one frame: the state so far, the plates
      validated so far (`detected_plates`), and the number of OCR reads made. */
  datatype Pass = Pass(state: State, detected: seq<string>, ocrReads: nat)

  /** The outcome of one frame. */
  datatype Frame = Frame(state: State, saved: seq<Session>, ocrReads: nat)

  function Initial(): State
  {
    State(map[], D.Empty(), D.Empty(), {})
  }

  /** Both ordered dictionaries list each of their keys once. */
  ghost predicate WellFormed(s: State)
  {
    D.Valid(s.lastSeen) && D.Valid(s.lastBoxes)
  }

  /** The tracker invariant: the structures describe the same plates (in the same
      order for the two ordered ones), every plate passed the grammar check, and
      the announced plates are among them. */
  ghost predicate Inv(s: State)
  {
    && WellFormed(s)
    && s.lastBoxes.keys == s.lastSeen.keys
    && s.activeTimers.Keys == s.lastSeen.vals.Keys
    && (forall p :: p in s.activeTimers ==> IsValidPlate(p))
    && s.inView <= s.activeTimers.Keys
  }

  // ---------------------------------------------------------------- matching

  /** The position of the first stored plate, in insertion order from `i` on,
      whose rectangle overlaps `b` above the threshold (the `for ... break` search). */
  function FirstMatchFrom(d: D.Dict<Box>, b: Box, i: nat): (r: Option<nat>)
    requires D.Valid(d)
    requires i <= |d.keys|
    ensures r.None? <==> forall j :: i <= j < |d.keys| ==> !Overlaps(b, d.vals[d.keys[j]])
    ensures r.Some? ==> i <= r.value < |d.keys| && Overlaps(b, d.vals[d.keys[r.value]])
    ensures r.Some? ==> forall j :: i <= j < r.value ==> !Overlaps(b, d.vals[d.keys[j]])
    decreases |d.keys| - i
  {
    if i == |d.keys| then None
    else if Overlaps(b, d.vals[d.keys[i]]) then Some(i)
    else FirstMatchFrom(d, b, i + 1)
  }

  /** The plate a rectangle continues, if any; Python's `if matched_plate:` treats
      an empty-string key as no match. */
  function MatchedPlate(s: State, b: Box): (r: Option<string>)
    requires WellFormed(s)
    ensures r.Some? ==> r.value in s.lastBoxes.vals && r.value != ""
    ensures r.Some? ==> Overlaps(b, s.lastBoxes.vals[r.value])
    ensures (forall k :: k in s.lastBoxes.vals ==> !Overlaps(b, s.lastBoxes.vals[k])) ==> r.None?
  {
    match FirstMatchFrom(s.lastBoxes, b, 0)
    case Some(i) => if s.lastBoxes.keys[i] != "" then Some(s.lastBoxes.keys[i]) else None
    case None => None
  }

  // ---------------------------------------------------------------- reading

  /** An OCR string worth keeping: at least one digit and at least one letter. */
  predicate PlateLike(t: string) { HasDigit(t) && HasAlpha(t) }

  /** The label given to a rectangle whose OCR yields nothing plate-like. */
  function Placeholder(b: Box): string
  {
    "Unknown_" + IntToString(b.x) + "_" + IntToString(b.y)
  }

  /** The position of the first plate-like OCR string from `i` on. */
  function FirstPlateLikeFrom(ocr: seq<string>, i: nat): (r: Option<nat>)
    requires i <= |ocr|
    ensures r.None? <==> forall j :: i <= j < |ocr| ==> !PlateLike(ocr[j])
    ensures r.Some? ==> i <= r.value < |ocr| && PlateLike(ocr[r.value])
    ensures r.Some? ==> forall j :: i <= j < r.value ==> !PlateLike(ocr[j])
    decreases |ocr| - i
  {
    if i == |ocr| then None
    else if PlateLike(ocr[i]) then Some(i)
    else FirstPlateLikeFrom(ocr, i + 1)
  }

  /** The text chosen for an unmatched rectangle: the first plate-like OCR string,
      otherwise the placeholder. */
  function ReadText(ocr: seq<string>, b: Box): (t: string)
    ensures (exists i :: 0 <= i < |ocr| && ocr[i] == t && PlateLike(t)
               && forall j :: 0 <= j < i ==> !PlateLike(ocr[j]))
         || (t == Placeholder(b) && forall j :: 0 <= j < |ocr| ==> !PlateLike(ocr[j]))
  {
    match FirstPlateLikeFrom(ocr, 0)
    case Some(i) => ocr[i]
    case None => Placeholder(b)
  }

  // ---------------------------------------------------------------- tracking

  /** A validated detection of `plate` at `b`: store the rectangle, start the entry
      timer if the plate has none, otherwise mark it announced, and refresh its
      last-seen time. */
  function Record(s: State, plate: string, b: Box, now: int): (r: State)
    ensures WellFormed(s) ==> WellFormed(r)
    ensures r.lastSeen.vals == s.lastSeen.vals[plate := now]
    ensures r.lastBoxes.vals == s.lastBoxes.vals[plate := b]
    ensures r.activeTimers.Keys == s.activeTimers.Keys + {plate}
    ensures forall p :: p in s.activeTimers ==> r.activeTimers[p] == s.activeTimers[p]
    ensures plate !in s.activeTimers ==> r.activeTimers[plate] == now
  {
    var timers := if plate !in s.activeTimers then s.activeTimers[plate := now] else s.activeTimers;
    var inView := if plate in s.activeTimers && plate !in s.inView then s.inView + {plate} else s.inView;
    State(timers, D.Set(s.lastSeen, plate, now), D.Set(s.lastBoxes, plate, b), inView)
  }

  /** The entry timers after some detections: none removed or changed, and any new
      one started at `now`. */
  ghost predicate Kept(before: map<string, int>, after: map<string, int>, now: int)
  {
    && (forall k :: k in before ==> k in after && after[k] == before[k])
    && (forall k :: k in after && k !in before ==> after[k] == now)
  }

  /** One detector rectangle of the current frame. */
  function ProcessDetection(p: Pass, d: Detection, now: int): (r: Pass)
    requires WellFormed(p.state)
    ensures WellFormed(r.state)
    ensures p.detected <= r.detected && |r.detected| <= |p.detected| + 1
    ensures forall i :: |p.detected| <= i < |r.detected| ==> IsValidPlate(r.detected[i])
    ensures p.ocrReads <= r.ocrReads <= p.ocrReads + 1
    ensures Kept(p.state.activeTimers, r.state.activeTimers, now)
  {
    if Area(d.box) <= MIN_AREA then p
    else
      var m := MatchedPlate(p.state, d.box);
      var text := if m.Some? then m.value else ReadText(d.ocr, d.box);
      var ocrReads := if m.Some? then p.ocrReads else p.ocrReads + 1;
      if IsValidPlate(text) then Pass(Record(p.state, text, d.box, now), p.detected + [text], ocrReads)
      else Pass(p.state, p.detected, ocrReads)
  }

  /** All rectangles of the frame, in detector order. */
  function Detect(p: Pass, ds: seq<Detection>, now: int): (r: Pass)
    requires WellFormed(p.state)
    ensures WellFormed(r.state)
    ensures p.detected <= r.detected && |r.detected| <= |p.detected| + |ds|
    ensures forall i :: |p.detected| <= i < |r.detected| ==> IsValidPlate(r.detected[i])
    ensures p.ocrReads <= r.ocrReads <= p.ocrReads + |ds|
    ensures Kept(p.state.activeTimers, r.state.activeTimers, now)
    decreases |ds|
  {
    if ds == [] then p else Detect(ProcessDetection(p, ds[0], now), ds[1..], now)
  }

  // ---------------------------------------------------------------- reaping

  /** Not detected in this frame and unseen for strictly longer than the grace period. */
  predicate Departs(seen: map<string, int>, detected: seq<string>, now: int, p: string)
    requires p in seen
  {
    p !in detected && now - seen[p] > GRACE_PERIOD
  }

  /** The session saved for a departing plate that entered at `start`. */
  function Closing(p: string, start: int, now: int): Session
  {
    Session(p, LOT_PLACEHOLDER, SLOT_PLACEHOLDER, start, now, now - start)
  }

  /** What the exit scan leaves behind: the entry timers after its pops, the
      plates to remove, and the sessions saved on the way. */
  datatype Exits = Exits(timers: map<string, int>, leaving: seq<string>, saved: seq<Session>)

  /** The scan over `last_seen_timestamps` in insertion order: a departing plate's
      entry timer is popped, a session is saved if the dwell up to now strictly
      exceeds the minimum, and the plate is queued for removal. */
  function ExitScan(items: seq<string>, seen: map<string, int>, detected: seq<string>, now: int,
                    timers: map<string, int>): (e: Exits)
    requires forall i :: 0 <= i < |items| ==> items[i] in seen
    ensures forall k :: k in e.timers ==> k in timers && e.timers[k] == timers[k]
    ensures |e.saved| <= |e.leaving| <= |items|
    ensures forall i :: 0 <= i < |e.saved| ==>
              e.saved[i].plate in e.leaving && e.saved[i].end == now && e.saved[i].duration > MIN_DWELL
    ensures forall i :: 0 <= i < |e.saved| ==>
              e.saved[i].plate in timers && e.saved[i].start == timers[e.saved[i].plate]
    ensures forall i, j :: 0 <= i < j < |e.saved| ==> e.saved[i].plate != e.saved[j].plate
    decreases |items|
  {
    if items == [] then Exits(timers, [], [])
    else
      var p := items[0];
      if Departs(seen, detected, now, p) then
        var closing := if p in timers && now - timers[p] > MIN_DWELL then [Closing(p, timers[p], now)] else [];
        var rest := ExitScan(items[1..], seen, detected, now, timers - {p});
        Exits(rest.timers, [p] + rest.leaving, closing + rest.saved)
      else
        ExitScan(items[1..], seen, detected, now, timers)
  }

  /** Removes the departing plates from the other three structures. */
  function Evict(s: State, leaving: seq<string>): (r: State)
    ensures WellFormed(s) ==> WellFormed(r)
    ensures r.activeTimers == s.activeTimers
    ensures s.lastBoxes.keys == s.lastSeen.keys ==> r.lastBoxes.keys == r.lastSeen.keys
    ensures forall k :: k in r.lastSeen.vals <==> k in s.lastSeen.vals && k !in leaving
    ensures forall k :: k in r.lastBoxes.vals <==> k in s.lastBoxes.vals && k !in leaving
    ensures forall k :: k in r.lastSeen.vals ==> r.lastSeen.vals[k] == s.lastSeen.vals[k]
    ensures forall k :: k in r.lastBoxes.vals ==> r.lastBoxes.vals[k] == s.lastBoxes.vals[k]
    ensures forall k :: k in r.inView <==> k in s.inView && k !in leaving
    decreases |leaving|
  {
    if leaving == [] then s
    else
      var p := leaving[0];
      Evict(State(s.activeTimers, D.Pop(s.lastSeen, p), D.Pop(s.lastBoxes, p), s.inView - {p}), leaving[1..])
  }

  /** The exit phase of a frame. */
  function Reap(p: Pass, now: int): (r: Frame)
    requires WellFormed(p.state)
    ensures WellFormed(r.state)
    ensures forall k :: k in r.state.activeTimers ==>
              k in p.state.activeTimers && r.state.activeTimers[k] == p.state.activeTimers[k]
    ensures forall i :: 0 <= i < |r.saved| ==> r.saved[i].end == now && r.saved[i].duration > MIN_DWELL
    ensures |r.saved| <= |p.state.lastSeen.keys|
    ensures forall i :: 0 <= i < |r.saved| ==>
              r.saved[i].plate in p.state.activeTimers && r.saved[i].start == p.state.activeTimers[r.saved[i].plate]
    ensures forall i, j :: 0 <= i < j < |r.saved| ==> r.saved[i].plate != r.saved[j].plate
  {
    var s := p.state;
    var e := ExitScan(s.lastSeen.keys, s.lastSeen.vals, p.detected, now, s.activeTimers);
    Frame(Evict(s.(activeTimers := e.timers), e.leaving), e.saved, p.ocrReads)
  }

  /** One frame: every rectangle in detector order, then the exit phase. */
  function Step(s: State, ds: seq<Detection>, now: int): (r: Frame)
    requires WellFormed(s)
    ensures WellFormed(r.state)
    ensures forall k :: k in r.state.activeTimers && k in s.activeTimers ==>
              r.state.activeTimers[k] == s.activeTimers[k]
    ensures forall k :: k in r.state.activeTimers && k !in s.activeTimers ==> r.state.activeTimers[k] == now
    ensures forall i :: 0 <= i < |r.saved| ==> r.saved[i].end == now && r.saved[i].duration > MIN_DWELL
    ensures forall i, j :: 0 <= i < j < |r.saved| ==> r.saved[i].plate != r.saved[j].plate
    ensures r.ocrReads <= |ds|
  {
    Reap(Detect(Pass(s, [], 0), ds, now), now)
  }

  /** The input of one frame. */
  datatype Input = Input(detections: seq<Detection>, now: int)

  /** A run of frames from a given state: the final state and every saved session, in order. */
  function Run(s: State, frames: seq<Input>): (r: (State, seq<Session>))
    requires WellFormed(s)
    ensures WellFormed(r.0)
    decreases |frames|
  {
    if frames == [] then (s, [])
    else
      var f := Step(s, frames[0].detections, frames[0].now);
      var rest := Run(f.state, frames[1..]);
      (rest.0, f.saved + rest.1)
  }
}

=== FILE: tracker_proofs.dfy ===
/** Properties of the per-frame tracker: the invariant every frame keeps, what the
    detection phase may change, when a plate is reaped, and which sessions are saved. */
module TrackerProofs {
  import opened Common
  import opened Geometry
  import opened PlateFormat
  import D = OrderedDict
  import opened Tracker

  // ---------------------------------------------------------------- detection phase

  /** What the detection phase may do between two points of one frame: entry times
      are kept, new entries carry `now` and were detected, and a plate not detected
      in the frame keeps its last-seen time, rectangle and announcement. */
  ghost predicate Extends(p: Pass, q: Pass, now: int)
  {
    && p.detected <= q.detected
    && p.ocrReads <= q.ocrReads
    && (forall k :: k in p.state.activeTimers ==>
          k in q.state.activeTimers && q.state.activeTimers[k] == p.state.activeTimers[k])
    && (forall k :: k in q.state.activeTimers && k !in p.state.activeTimers ==>
          q.state.activeTimers[k] == now && k in q.detected)
    && (forall k :: k in q.state.lastSeen.vals && k !in q.detected ==>
          k in p.state.lastSeen.vals && q.state.lastSeen.vals[k] == p.state.lastSeen.vals[k])
    && (forall k :: k in q.state.lastBoxes.vals && k !in q.detected ==>
          k in p.state.lastBoxes.vals && q.state.lastBoxes.vals[k] == p.state.lastBoxes.vals[k])
    && (forall k :: k !in q.detected ==> (k in q.state.inView <==> k in p.state.inView))
  }

  /** Every plate validated so far in the frame was last seen `now`. */
  ghost predicate Refreshed(p: Pass, now: int)
  {
    forall k :: k in p.detected ==> k in p.state.lastSeen.vals && p.state.lastSeen.vals[k] == now
  }

  lemma PrefixMember(a: seq<string>, b: seq<string>, k: string)
    requires a <= b && k in a
    ensures k in b
  {
    assert b[..|a|] == a;
  }

  lemma ExtendsTransitive(p: Pass, q: Pass, r: Pass, now: int)
    requires Extends(p, q, now) && Extends(q, r, now)
    ensures Extends(p, r, now)
  {
    forall k | k in q.detected
      ensures k in r.detected
    {
      PrefixMember(q.detected, r.detected, k);
    }
  }

  lemma RecordPreservesInv(s: State, plate: string, b: Box, now: int)
    requires Inv(s) && IsValidPlate(plate)
    ensures Inv(Record(s, plate, b, now))
  {
    assert plate in s.lastSeen.vals <==> plate in s.lastBoxes.vals;
  }

  /** Recording a validated plate extends the pass and keeps the invariant. */
  lemma RecordedSpec(p: Pass, text: string, b: Box, now: int, ocrReads: nat)
    requires Inv(p.state) && Refreshed(p, now) && IsValidPlate(text) && p.ocrReads <= ocrReads
    ensures var q := Pass(Record(p.state, text, b, now), p.detected + [text], ocrReads);
      Inv(q.state) && Extends(p, q, now) && Refreshed(q, now)
  {
    var q := Pass(Record(p.state, text, b, now), p.detected + [text], ocrReads);
    RecordPreservesInv(p.state, text, b, now);
    forall k | k in p.detected
      ensures k in q.detected
    {
      PrefixMember(p.detected, q.detected, k);
    }
  }

  lemma ProcessDetectionSpec(p: Pass, d: Detection, now: int)
    requires Inv(p.state) && Refreshed(p, now)
    ensures Inv(ProcessDetection(p, d, now).state)
    ensures Extends(p, ProcessDetection(p, d, now), now)
    ensures Refreshed(ProcessDetection(p, d, now), now)
  {
    if Area(d.box) > MIN_AREA {
      var m := MatchedPlate(p.state, d.box);
      var text := if m.Some? then m.value else ReadText(d.ocr, d.box);
      var ocrReads := if m.Some? then p.ocrReads else p.ocrReads + 1;
      if IsValidPlate(text) {
        RecordedSpec(p, text, d.box, now, ocrReads);
        assert ProcessDetection(p, d, now) == Pass(Record(p.state, text, d.box, now), p.detected + [text], ocrReads);
      } else {
        assert ProcessDetection(p, d, now) == Pass(p.state, p.detected, ocrReads);
      }
    }
  }

  /** The whole detection phase, from any point of the frame to its end. */
  lemma {:induction false} DetectSpec(p: Pass, ds: seq<Detection>, now: int)
    requires Inv(p.state) && Refreshed(p, now)
    ensures Inv(Detect(p, ds, now).state)
    ensures Extends(p, Detect(p, ds, now), now)
    ensures Refreshed(Detect(p, ds, now), now)
    decreases |ds|
  {
    if ds != [] {
      var p1 := ProcessDetection(p, ds[0], now);
      ProcessDetectionSpec(p, ds[0], now);
      DetectSpec(p1, ds[1..], now);
      ExtendsTransitive(p, p1, Detect(p, ds, now), now);
    }
  }

  // ---------------------------------------------------------------- exit phase

  /** The exit scan queues and pops exactly the departing plates. */
  lemma {:induction false} ExitScanRemoves(items: seq<string>, seen: map<string, int>, detected: seq<string>,
                                            now: int, timers: map<string, int>)
    requires forall k :: k in items ==> k in seen
    ensures var e := ExitScan(items, seen, detected, now, timers);
      && (forall k :: k in e.leaving <==> k in items && Departs(seen, detected, now, k))
      && (forall k :: k in e.timers <==> k in timers && !(k in items && Departs(seen, detected, now, k)))
      && (forall k :: k in e.timers ==> e.timers[k] == timers[k])
    decreases |items|
  {
    if items != [] {
      var p := items[0];
      if Departs(seen, detected, now, p) {
        ExitScanRemoves(items[1..], seen, detected, now, timers - {p});
      } else {
        ExitScanRemoves(items[1..], seen, detected, now, timers);
      }
    }
  }

  /** Every saved session belongs to a departing plate with a long enough dwell,
      and no plate is saved twice. */
  ghost predicate SavedSound(items: seq<string>, seen: map<string, int>, detected: seq<string>,
                             now: int, timers: map<string, int>, saved: seq<Session>)
    requires forall k :: k in items ==> k in seen
  {
    && (forall i :: 0 <= i < |saved| ==>
          && saved[i].plate in items && Departs(seen, detected, now, saved[i].plate)
          && saved[i].plate in timers && now - timers[saved[i].plate] > MIN_DWELL
          && saved[i] == Closing(saved[i].plate, timers[saved[i].plate], now))
    && (forall i, j :: 0 <= i < j < |saved| ==> saved[i].plate != saved[j].plate)
  }

  lemma {:induction false} ExitScanSavedSound(items: seq<string>, seen: map<string, int>, detected: seq<string>,
                                               now: int, timers: map<string, int>)
    requires D.Distinct(items)
    requires forall k :: k in items ==> k in seen
    ensures SavedSound(items, seen, detected, now, timers, ExitScan(items, seen, detected, now, timers).saved)
    decreases |items|
  {
    if items != [] {
      var p := items[0];
      assert D.Distinct(items[1..]);
      assert p !in items[1..];
      var e := ExitScan(items, seen, detected, now, timers);
      if Departs(seen, detected, now, p) {
        var t' := timers - {p};
        ExitScanSavedSound(items[1..], seen, detected, now, t');
        var rest := ExitScan(items[1..], seen, detected, now, t');
        var closing := if p in timers && now - timers[p] > MIN_DWELL then [Closing(p, timers[p], now)] else [];
        assert e.saved == closing + rest.saved;
        forall i | |closing| <= i < |e.saved|
          ensures e.saved[i] == rest.saved[i - |closing|]
          ensures e.saved[i].plate in items[1..] && e.saved[i].plate != p
        {
        }
      } else {
        ExitScanSavedSound(items[1..], seen, detected, now, timers);
        assert e == ExitScan(items[1..], seen, detected, now, timers);
      }
    }
  }

  /** Every departing plate with a long enough dwell gets a session. */
  ghost predicate SavedComplete(items: seq<string>, seen: map<string, int>, detected: seq<string>,
                                now: int, timers: map<string, int>, saved: seq<Session>)
    requires forall k :: k in items ==> k in seen
  {
    forall k :: k in items && Departs(seen, detected, now, k) && k in timers && now - timers[k] > MIN_DWELL ==>
      exists i :: 0 <= i < |saved| && saved[i].plate == k
  }

  /** A plate saved in the tail of the scan is saved in the whole of it. */
  lemma SavedInTail(closing: seq<Session>, rest: seq<Session>, k: string)
    requires exists i :: 0 <= i < |rest| && rest[i].plate == k
    ensures exists i :: 0 <= i < |closing + rest| && (closing + rest)[i].plate == k
  {
    var i :| 0 <= i < |rest| && rest[i].plate == k;
    assert (closing + rest)[|closing| + i] == rest[i];
  }

  lemma {:induction false} ExitScanSavedComplete(items: seq<string>, seen: map<string, int>, detected: seq<string>,
                                                  now: int, timers: map<string, int>)
    requires D.Distinct(items)
    requires forall k :: k in items ==> k in seen
    ensures SavedComplete(items, seen, detected, now, timers, ExitScan(items, seen, detected, now, timers).saved)
    decreases |items|
  {
    if items != [] {
      var p := items[0];
      assert D.Distinct(items[1..]);
      if Departs(seen, detected, now, p) {
        ExitScanSavedComplete(items[1..], seen, detected, now, timers - {p});
        var rest := ExitScan(items[1..], seen, detected, now, timers - {p});
        var e := ExitScan(items, seen, detected, now, timers);
        var closing := if p in timers && now - timers[p] > MIN_DWELL then [Closing(p, timers[p], now)] else [];
        assert e.saved == closing + rest.saved;
        forall k | k in items && Departs(seen, detected, now, k) && k in timers && now - timers[k] > MIN_DWELL
          ensures exists i :: 0 <= i < |e.saved| && e.saved[i].plate == k
        {
          if k == p {
            assert closing == [Closing(p, timers[p], now)];
            assert e.saved[0].plate == k;
          } else {
            assert k in items[1..];
            assert k in timers - {p} && (timers - {p})[k] == timers[k];
            SavedInTail(closing, rest.saved, k);
          }
        }
      } else {
        ExitScanSavedComplete(items[1..], seen, detected, now, timers);
        assert ExitScan(items, seen, detected, now, timers) == ExitScan(items[1..], seen, detected, now, timers);
      }
    }
  }

  /** The tracker invariant is kept by the exit phase of a frame, which drops exactly the
      departing plates and leaves the others' entries as they were. */
  lemma ReapKeeps(p: Pass, now: int)
    requires Inv(p.state)
    ensures var s := p.state; var r := Reap(p, now).state;
      && Inv(r)
      && (forall k :: k in s.activeTimers ==>
            (k !in r.activeTimers <==> Departs(s.lastSeen.vals, p.detected, now, k)))
      && r.activeTimers.Keys <= s.activeTimers.Keys
      && (forall k :: k in r.activeTimers ==>
            && r.activeTimers[k] == s.activeTimers[k]
            && r.lastSeen.vals[k] == s.lastSeen.vals[k]
            && r.lastBoxes.vals[k] == s.lastBoxes.vals[k]
            && (k in r.inView <==> k in s.inView))
  {
    var s := p.state;
    ExitScanRemoves(s.lastSeen.keys, s.lastSeen.vals, p.detected, now, s.activeTimers);
  }

  /** The sessions the exit phase saves: one per dropped plate that stayed long enough,
      none for any other plate, and none twice. */
  lemma ReapSaved(p: Pass, now: int)
    requires Inv(p.state)
    ensures var s := p.state; var f := Reap(p, now);
      && (forall i :: 0 <= i < |f.saved| ==>
            && f.saved[i].plate in s.activeTimers && f.saved[i].plate !in f.state.activeTimers
            && now - s.activeTimers[f.saved[i].plate] > MIN_DWELL
            && f.saved[i] == Closing(f.saved[i].plate, s.activeTimers[f.saved[i].plate], now))
      && (forall k :: k in s.activeTimers && k !in f.state.activeTimers && now - s.activeTimers[k] > MIN_DWELL ==>
            exists i :: 0 <= i < |f.saved| && f.saved[i].plate == k)
      && (forall i, j :: 0 <= i < j < |f.saved| ==> f.saved[i].plate != f.saved[j].plate)
  {
    var s := p.state;
    ExitScanRemoves(s.lastSeen.keys, s.lastSeen.vals, p.detected, now, s.activeTimers);
    ExitScanSavedSound(s.lastSeen.keys, s.lastSeen.vals, p.detected, now, s.activeTimers);
    ExitScanSavedComplete(s.lastSeen.keys, s.lastSeen.vals, p.detected, now, s.activeTimers);
  }

  // ---------------------------------------------------------------- whole frames

  /** The detection phase of a frame started from `s`. */
  function Mid(s: State, ds: seq<Detection>, now: int): Pass
    requires WellFormed(s)
  {
    Detect(Pass(s, [], 0), ds, now)
  }

  lemma MidSpec(s: State, ds: seq<Detection>, now: int)
    requires Inv(s)
    ensures Inv(Mid(s, ds, now).state)
    ensures Extends(Pass(s, [], 0), Mid(s, ds, now), now)
    ensures Refreshed(Mid(s, ds, now), now)
  {
    DetectSpec(Pass(s, [], 0), ds, now);
  }

  /** After every frame the three dictionaries describe the same plates (the two
      ordered ones in the same order), every plate passes the grammar check, and
      the announced plates are among them. */
  lemma StepPreservesInv(s: State, ds: seq<Detection>, now: int)
    requires Inv(s)
    ensures Inv(Step(s, ds, now).state)
    ensures var r := Step(s, ds, now).state;
      r.activeTimers.Keys == r.lastSeen.vals.Keys == r.lastBoxes.vals.Keys
  {
    MidSpec(s, ds, now);
    ReapKeeps(Mid(s, ds, now), now);
  }

  /** An entry time is written only for a plate without one, and is never overwritten
      while the plate stays tracked; a new entry time is this frame's `now`. */
  lemma EntryTimeKept(s: State, ds: seq<Detection>, now: int)
    requires Inv(s)
    ensures var r := Step(s, ds, now).state;
      && (forall k :: k in s.activeTimers && k in r.activeTimers ==> r.activeTimers[k] == s.activeTimers[k])
      && (forall k :: k in r.activeTimers && k !in s.activeTimers ==>
            r.activeTimers[k] == now && k in Mid(s, ds, now).detected)
  {
    MidSpec(s, ds, now);
    ReapKeeps(Mid(s, ds, now), now);
  }

  /** A plate validated in this frame is kept, with last-seen time `now`. */
  lemma DetectedRefreshed(s: State, ds: seq<Detection>, now: int)
    requires Inv(s)
    ensures var r := Step(s, ds, now).state;
      forall k :: k in Mid(s, ds, now).detected ==>
        k in r.activeTimers && k in r.lastSeen.vals && r.lastSeen.vals[k] == now
  {
    var m := Mid(s, ds, now);
    MidSpec(s, ds, now);
    ReapKeeps(m, now);
  }

  /** A plate tracked before the frame is reaped exactly when it was not validated in
      the frame and its previous last-seen time is strictly more than the grace period
      ago; a plate that entered in this frame is never reaped in it. */
  lemma ReapedIff(s: State, ds: seq<Detection>, now: int)
    requires Inv(s)
    ensures forall k :: k in s.activeTimers ==>
      (k !in Step(s, ds, now).state.activeTimers <==>
         k !in Mid(s, ds, now).detected && now - s.lastSeen.vals[k] > GRACE_PERIOD)
    ensures forall k :: k in Mid(s, ds, now).state.activeTimers && k !in s.activeTimers ==>
      k in Step(s, ds, now).state.activeTimers
  {
    var m := Mid(s, ds, now);
    var r := Step(s, ds, now).state;
    MidSpec(s, ds, now);
    ReapKeeps(m, now);
    assert r == Reap(m, now).state;
    forall k | k in s.activeTimers
      ensures k !in r.activeTimers <==> k !in m.detected && now - s.lastSeen.vals[k] > GRACE_PERIOD
    {
      assert k in m.state.activeTimers;
      if k !in m.detected {
        assert k in m.state.lastSeen.vals;
        assert m.state.lastSeen.vals[k] == s.lastSeen.vals[k];
      }
    }
    forall k | k in m.state.activeTimers && k !in s.activeTimers
      ensures k in r.activeTimers
    {
      assert k in m.detected;
    }
  }

  /** A plate that survives the frame without being validated in it is untouched:
      same entry time, last-seen time, rectangle and announcement as before. */
  lemma SurvivorsUntouched(s: State, ds: seq<Detection>, now: int)
    requires Inv(s)
    ensures var r := Step(s, ds, now).state;
      forall k :: k in r.activeTimers && k !in Mid(s, ds, now).detected ==>
        && k in s.activeTimers && k in r.lastSeen.vals && k in r.lastBoxes.vals
        && r.activeTimers[k] == s.activeTimers[k]
        && r.lastSeen.vals[k] == s.lastSeen.vals[k]
        && r.lastBoxes.vals[k] == s.lastBoxes.vals[k]
        && (k in r.inView <==> k in s.inView)
  {
    var m := Mid(s, ds, now);
    var r := Step(s, ds, now).state;
    MidSpec(s, ds, now);
    ReapKeeps(m, now);
    assert r == Reap(m, now).state;
    forall k | k in r.activeTimers && k !in m.detected
      ensures k in s.activeTimers && k in r.lastSeen.vals && k in r.lastBoxes.vals
      ensures r.activeTimers[k] == s.activeTimers[k]
      ensures r.lastSeen.vals[k] == s.lastSeen.vals[k]
      ensures r.lastBoxes.vals[k] == s.lastBoxes.vals[k]
      ensures k in r.inView <==> k in s.inView
    {
      assert k in m.state.activeTimers;
      assert k in m.state.lastSeen.vals && k in m.state.lastBoxes.vals;
    }
  }

  /** The sessions a frame saves: one per reaped plate whose entry time is strictly more
      than the minimum dwell before `now`, ending at `now` (not at the last sighting),
      at most one per plate, and each for a plate that is no longer tracked. */
  lemma SavedSessions(s: State, ds: seq<Detection>, now: int)
    requires Inv(s)
    ensures var m := Mid(s, ds, now).state; var f := Step(s, ds, now);
      && (forall i :: 0 <= i < |f.saved| ==>
            && f.saved[i].plate in m.activeTimers
            && f.saved[i].plate !in f.state.activeTimers
            && f.saved[i].lot == LOT_PLACEHOLDER && f.saved[i].slot == SLOT_PLACEHOLDER
            && f.saved[i].start == m.activeTimers[f.saved[i].plate]
            && f.saved[i].end == now
            && f.saved[i].duration == now - f.saved[i].start
            && f.saved[i].duration > MIN_DWELL)
      && (forall k :: k in m.activeTimers && k !in f.state.activeTimers && now - m.activeTimers[k] > MIN_DWELL ==>
            exists i :: 0 <= i < |f.saved| && f.saved[i].plate == k)
      && (forall i, j :: 0 <= i < j < |f.saved| ==> f.saved[i].plate != f.saved[j].plate)
  {
    MidSpec(s, ds, now);
    ReapSaved(Mid(s, ds, now), now);
  }

  /** Entry and last-seen times are ordered and not in the future. */
  ghost predicate Clocked(s: State, t: int)
  {
    forall k :: k in s.activeTimers ==>
      k in s.lastSeen.vals && s.activeTimers[k] <= s.lastSeen.vals[k] <= t
  }

  /** With a clock that does not run backwards, entry <= last seen <= now after each frame;
      a saved session then spans more than the observed dwell plus the grace period. */
  lemma StepKeepsClock(s: State, ds: seq<Detection>, t: int, now: int)
    requires Inv(s) && Clocked(s, t) && t <= now
    ensures Clocked(Step(s, ds, now).state, now)
    ensures var m := Mid(s, ds, now).state; var f := Step(s, ds, now);
      forall i, k :: 0 <= i < |f.saved| && f.saved[i].plate == k && k in m.lastSeen.vals ==>
        f.saved[i].duration > m.lastSeen.vals[k] - f.saved[i].start + GRACE_PERIOD
  {
    var m := Mid(s, ds, now);
    MidSpec(s, ds, now);
    ReapKeeps(m, now);
    ReapSaved(m, now);
    assert Clocked(m.state, now) by {
      forall k | k in m.state.activeTimers
        ensures m.state.activeTimers[k] <= m.state.lastSeen.vals[k] <= now
      {
        if k !in s.activeTimers {
          assert m.state.activeTimers[k] == now && k in m.detected;
        } else if k in m.detected {
        } else {
        }
      }
    }
  }

  /** A run of frames keeps the invariant. */
  lemma {:induction false} RunPreservesInv(s: State, frames: seq<Input>)
    requires Inv(s)
    ensures Inv(Run(s, frames).0)
    decreases |frames|
  {
    if frames != [] {
      StepPreservesInv(s, frames[0].detections, frames[0].now);
      RunPreservesInv(Step(s, frames[0].detections, frames[0].now).state, frames[1..]);
    }
  }

  lemma InitialInv()
    ensures Inv(Initial())
    ensures Clocked(Initial(), 0)
  {
  }

  // ---------------------------------------------------------------- single detections

  /** A rectangle of area at most `MIN_AREA` changes nothing and reads nothing. */
  lemma SmallDetectionIgnored(p: Pass, d: Detection, now: int)
    requires WellFormed(p.state)
    requires Area(d.box) <= MIN_AREA
    ensures ProcessDetection(p, d, now) == p
  {
  }

  /** Rectangles that are too small can be dropped from a frame without effect. */
  function Significant(ds: seq<Detection>): (r: seq<Detection>)
    ensures forall i :: 0 <= i < |r| ==> Area(r[i].box) > MIN_AREA
    ensures |r| <= |ds|
  {
    if ds == [] then []
    else if Area(ds[0].box) > MIN_AREA then [ds[0]] + Significant(ds[1..])
    else Significant(ds[1..])
  }

  lemma {:induction false} SmallDetectionsIgnored(p: Pass, ds: seq<Detection>, now: int)
    requires WellFormed(p.state)
    ensures Detect(p, ds, now) == Detect(p, Significant(ds), now)
    decreases |ds|
  {
    if ds != [] {
      if Area(ds[0].box) > MIN_AREA {
        var p1 := ProcessDetection(p, ds[0], now);
        SmallDetectionsIgnored(p1, ds[1..], now);
        assert Significant(ds) == [ds[0]] + Significant(ds[1..]);
        assert ([ds[0]] + Significant(ds[1..]))[1..] == Significant(ds[1..]);
      } else {
        SmallDetectionsIgnored(p, ds[1..], now);
      }
    }
  }

  /** First match wins: a tracked plate is reused exactly when some stored rectangle
      overlaps, and it is the earliest-inserted such plate. */
  lemma FirstMatchWins(s: State, b: Box)
    requires Inv(s)
    ensures MatchedPlate(s, b).None? <==> forall k :: k in s.lastBoxes.vals ==> !Overlaps(b, s.lastBoxes.vals[k])
    ensures MatchedPlate(s, b).Some? ==>
      exists i :: 0 <= i < |s.lastBoxes.keys| && s.lastBoxes.keys[i] == MatchedPlate(s, b).value
        && Overlaps(b, s.lastBoxes.vals[s.lastBoxes.keys[i]])
        && forall j :: 0 <= j < i ==> !Overlaps(b, s.lastBoxes.vals[s.lastBoxes.keys[j]])
  {
    var m := FirstMatchFrom(s.lastBoxes, b, 0);
    if m.Some? {
      var k := s.lastBoxes.keys[m.value];
      assert k in s.activeTimers;
      assert k != "";
    } else {
      forall k | k in s.lastBoxes.vals
        ensures !Overlaps(b, s.lastBoxes.vals[k])
      {
        var i :| 0 <= i < |s.lastBoxes.keys| && s.lastBoxes.keys[i] == k;
      }
    }
  }

  /** A rectangle that continues a tracked plate reuses its identity: no OCR read (the
      result does not depend on the OCR strings), the rectangle and last-seen time are
      refreshed, the entry time is kept. */
  lemma MatchedSkipsOcr(p: Pass, d: Detection, now: int, ocr: seq<string>)
    requires Inv(p.state)
    requires Area(d.box) > MIN_AREA && MatchedPlate(p.state, d.box).Some?
    ensures var r := ProcessDetection(p, d, now); var k := MatchedPlate(p.state, d.box).value;
      && r == ProcessDetection(p, d.(ocr := ocr), now)
      && r.ocrReads == p.ocrReads
      && r.detected == p.detected + [k]
      && r.state.lastBoxes.vals[k] == d.box
      && r.state.lastSeen.vals[k] == now
      && r.state.activeTimers == p.state.activeTimers
  {
    var k := MatchedPlate(p.state, d.box).value;
    assert k in p.state.activeTimers;
  }

  /** A rectangle that continues nothing costs one OCR read; the chosen text is tracked
      if it passes the grammar check and discarded otherwise. */
  lemma UnmatchedReadsOcr(p: Pass, d: Detection, now: int)
    requires WellFormed(p.state)
    requires Area(d.box) > MIN_AREA && MatchedPlate(p.state, d.box).None?
    ensures var r := ProcessDetection(p, d, now); var t := ReadText(d.ocr, d.box);
      && r.ocrReads == p.ocrReads + 1
      && (IsValidPlate(t) ==> r.detected == p.detected + [t] && r.state == Record(p.state, t, d.box, now))
      && (!IsValidPlate(t) ==> r.state == p.state && r.detected == p.detected)
  {
  }

  /** The placeholder label never passes the grammar check, so an unread rectangle is never tracked. */
  lemma PlaceholderNeverValid(b: Box)
    ensures !IsValidPlate(Placeholder(b))
  {
    var t := Placeholder(b);
    assert t[1] == 'n';
    if |t| >= 14 {
      assert t[..13][1] == 'n';
    }
  }

  /** A rectangle identical to a stored one of positive size always matches some
      tracked plate, so it is never re-read. */
  lemma RepeatedBoxMatches(s: State, k: string)
    requires Inv(s) && k in s.lastBoxes.vals
    requires s.lastBoxes.vals[k].w > 0 && s.lastBoxes.vals[k].h > 0
    ensures MatchedPlate(s, s.lastBoxes.vals[k]).Some?
  {
    IouSelf(s.lastBoxes.vals[k]);
    FirstMatchWins(s, s.lastBoxes.vals[k]);
  }
}
